=== FILE: README.md ===
# Activity tracker: a Dafny model of the request workflow

The model covers the activity tracker web application. Signed-in users add,
edit, delete, page through and sort their "activities". Each activity has a
title, a category, a completion date and minutes spent. Both tables live in
PostgreSQL behind a gateway object.

The model has two halves:

- The gateway, `PgPersistence`, is modelled with one operation per SQL
  statement on an abstract two-table store (module `Persistence`).
- The Express application is modelled by:
  - the express-validator chains (`Validation`);
  - the session record, the per-request extraction middleware, the flash
    queue and the sort toggle (`Sessions`);
  - page arithmetic (`Pagination`);
  - one pure function per route handler, plus the authentication gate and the
    dispatcher `Serve` (`Routes`).

Each handler maps a session, a store and the request parameters to a new
session, a new store and a response. A response is a rendered view with its
flash messages, a redirect, or the 404 error page.

`Invariants` states what holds across requests:

- what every request preserves;
- which requests may write the activity table;
- the one-shot redirect after sign-in;
- the sort state surviving sign-out;
- the username-conflict outcomes;
- an end-to-end session: create an account, add an activity, list page 1.

`Basics` holds `Option`, `Result` and the JavaScript `Error` value. `Text`
holds `String.prototype.trim`, substring search and decimal rendering.

Things the code depends on but cannot see become parameters (`Routes.Env`):

- the salt bcrypt draws;
- whether an account write throws. This covers a concurrent writer that took
  the username first, or a database failure.

bcrypt is a datatype that records the key it was computed from: the first
72 units of the password, which is all bcrypt reads. `Compare` reads only
that key.

Some behaviour of the code is easy to miss, and the model keeps it as written:

- `deleteActivity` (lib/pg-persistence.js:71-78) filters on the id alone. A
  signed-in user can therefore delete another user's activity
  (`Invariants.DeleteReachesForeignActivity`). Every other activity statement
  is scoped by the gateway's username.
- `editActivity` (lib/pg-persistence.js:81-90) is scoped by id and username
  in the UPDATE statement itself, not only by the ownership check before it.
- The two "username taken" paths of account creation show different
  messages. The existence check (activity-tracker.js:410-413) shows "Sorry,
  this username is already taken. Please try again". A conflict reported by
  the insert (activity-tracker.js:424-427) shows "The username is taken.
  Please try again." (`Invariants.TakenOnCheckRerenders`,
  `Invariants.TakenOnWriteRerenders`).
- Deleting the account (activity-tracker.js:437-450) removes `username` and
  `signedIn` from the session but not the cached plaintext password
  (`Invariants.DeleteAccountKeepsCachedPassword`).
- Neither `deleteAccount` nor `updateAccount` (lib/pg-persistence.js:62-68,
  160-167) touches the activities table. What happens to the user's rows is
  up to the schema, which is not part of this model.
- The sort route (activity-tracker.js:298-301) checks the page against
  `ceil(count / 5)` with no floor of 1. A user with no activities therefore
  cannot sort at all (`Invariants.SortWithoutActivitiesFails`), while page 1
  of the list always renders (`Invariants.FirstPageAlwaysRenders`).
- A password of 72 units or more is not the only one that opens its account.
  Any password that starts with the same 72 units does too
  (`Persistence.LongPasswordExtensionsSignIn`), because bcrypt ignores the
  rest and the validator (activity-tracker.js:388-390) sets no maximum length.

## Model

| member | source | states |
|---|---|---|
| Text.Trim | activity-tracker.js:326 | the result is the input with its maximal leading and trailing runs of ECMAScript white space and line terminators removed |
| Text.TrimIdempotent | activity-tracker.js:21-23 | trimming a trimmed string changes nothing |
| Text.TrimKeepsTrimmed | activity-tracker.js:376-377 | a string with no white space at either end is its own trim |
| Text.ContainsFrom | lib/pg-persistence.js:133-135 | the search from index i succeeds exactly when the needle occurs at some position at or after i |
| Text.TooLongNeverContained | lib/pg-persistence.js:133-135 | a needle longer than the text never occurs in it |
| Text.NatToDecimal | activity-tracker.js:314 | the rendering of a page number is a non-empty digit string with no leading zero |
| Text.DecimalRoundTrip | activity-tracker.js:314 | reading the decimal rendering back gives the number |
| Text.DecimalInjective | activity-tracker.js:314 | distinct page numbers give distinct redirect paths |
| Pagination.GenArraySequence | activity-tracker.js:31-38 | the array has max(num, 0) elements and element i is i + 1 |
| Pagination.InSequenceIffInRange | activity-tracker.js:44-45 | a value is in the generated sequence exactly when it is an integer between 1 and num |
| Pagination.IsValidPageNum | activity-tracker.js:41-48 | a page number is valid exactly when it is a finite integer between 1 and the number of pages; NaN, infinities and fractions are rejected |
| Pagination.CeilDiv | activity-tracker.js:299 | the result is the least multiple count that covers a |
| Pagination.NumberOfPages | activity-tracker.js:125 | at least one page; enough pages of five for every activity and no spare page; page 1 is always valid |
| Pagination.PageWindow | activity-tracker.js:131-134 | the slice holds at most five activities, the ones at positions (page-1)*5 onwards in order; pages before the last are full and a valid page of a non-empty list is non-empty; the last page's exact extent is pinned by PagesArePrefix |
| Pagination.Paginate | activity-tracker.js:125-139 | a page comes back exactly when the requested number is valid, with the window, the page numbers 1 to n in order, and the current page |
| Pagination.PagesArePrefix | activity-tracker.js:131-134 | pages 1..n concatenated are the first min(5n, length) activities |
| Pagination.PagesPartitionList | activity-tracker.js:125-134 | all pages concatenated are the whole list: nothing lost, nothing repeated |
| Pagination.PageOfIndex | activity-tracker.js:125-134 | activity i appears on page i/5+1 at position i%5, and on no other page |
| Pagination.SortCheckVersusListCheck | activity-tracker.js:298-301 | with at least one activity, the sort route's page check agrees with the list route's; with none, the sort route rejects every page while the list route accepts page 1 |
| Persistence.OwnedRows | lib/pg-persistence.js:146-148 | a row is listed exactly when it is in the table and its username is the gateway's non-null username |
| Persistence.FirstMatch | lib/pg-persistence.js:98-104 | a row is found exactly when some row has the id and the gateway's username, and it is such a row |
| Persistence.AddActivity | lib/pg-persistence.js:12-20 | one row is appended with the four fields, the gateway's username and a fresh id; earlier rows and users are untouched; unique ids are preserved |
| Persistence.CheckIsValidActivity | lib/pg-persistence.js:44-49 | true exactly when a row has the id and is owned by the gateway's user |
| Persistence.GetActivity | lib/pg-persistence.js:98-104 | a row comes back exactly when the validity check holds, and it is a stored row with that id owned by the user |
| Persistence.GetActivityCount | lib/pg-persistence.js:107-112 | the count is zero exactly when the user owns no row, and never exceeds the table size; its value is pinned by AddActivityRaisesCount |
| Persistence.IsSameActivity | lib/pg-persistence.js:120-129 | true exactly when an owned row with the id has exactly the four proposed fields; implies the validity check |
| Persistence.EditActivity | lib/pg-persistence.js:81-90 | rows with the id owned by the user get the new fields; every other row, every id and owner, the row order and the users table are unchanged; a row is affected exactly when the validity check holds |
| Persistence.RowsWithoutId | lib/pg-persistence.js:71-78 | the surviving rows are exactly those without the id; with no such row the table is unchanged |
| Persistence.RowsWithoutIdKeepsDistinct | lib/pg-persistence.js:71-78 | deleting rows keeps the remaining ids distinct |
| Persistence.DeleteActivity | lib/pg-persistence.js:71-78 | every row with the id is removed whoever owns it; a row is affected exactly when one had the id; otherwise the store is unchanged |
| Persistence.LoadSortedActivities | lib/pg-persistence.js:138-157 | the statement is the base query, a space and the ORDER BY clause; the rows are exactly the user's rows, as many as the count statement reports |
| Persistence.SortKeyIsSafe | lib/pg-persistence.js:141-143 | an allow-listed column yields one of four fixed sort keys |
| Persistence.OrderByClauseIsSafe | lib/pg-persistence.js:145-151 | for an allow-listed column and direction the spliced clause is built only from fixed keys and ASC/DESC |
| Persistence.IsUniqueConstraintViolation | lib/pg-persistence.js:133-135 | true exactly when the duplicate-key phrase occurs somewhere in String(error) |
| Persistence.UniqueViolationRecognised | lib/pg-persistence.js:133-135 | the driver's duplicate-key error is always classified as a uniqueness conflict |
| Persistence.ShortErrorNotRecognised | activity-tracker.js:520-526 | an Error with a message shorter than the phrase is never classified as a conflict, so it is rethrown |
| Persistence.Authenticate | lib/pg-persistence.js:22-33 | true exactly when the username has a row and the password matches its stored digest |
| Persistence.UsernameExistsIffInsertConflicts | lib/pg-persistence.js:36-41 | the existence check answers yes exactly for the names whose insert would break the uniqueness constraint |
| Persistence.CreateAccount | lib/pg-persistence.js:52-59 | a taken name throws the duplicate-key error; otherwise exactly one user is added, with the digest of the password, and nothing else changes |
| Persistence.UpdateAccount | lib/pg-persistence.js:160-167 | with no row for the gateway's user nothing is affected; a new name held by another row throws the duplicate-key error; otherwise the row is re-keyed to the new name with the new digest and the other users are kept |
| Persistence.DeleteAccount | lib/pg-persistence.js:62-68 | exactly the gateway user's row is removed; with no such row nothing is affected and the store is unchanged; activities are untouched |
| Persistence.IsSameAccount | lib/pg-persistence.js:115-117 | true exactly when both submitted strings equal the copied credentials |
| Persistence.FirstMatchSkipsUnmatched | lib/pg-persistence.js:98-104 | rows that do not match do not change what a scoped select finds |
| Persistence.AddThenGetActivity | lib/pg-persistence.js:12-20 | reading back an added activity by its new id returns the four fields owned by the user |
| Persistence.EditThenIsSame | lib/pg-persistence.js:81-90 | after editing an owned row, the same fields count as "no edits" |
| Persistence.DeleteRemovesForeignRow | lib/pg-persistence.js:71-78 | a row owned by another user is removed and the delete reports success |
| Persistence.CreateThenAuthenticate | lib/pg-persistence.js:52-59 | after creation the name signs in with exactly the passwords that share the chosen password's first 72 units; a password shorter than 72 signs in alone |
| Persistence.UpdateThenAuthenticate | lib/pg-persistence.js:160-167 | after an update the new name signs in with exactly the passwords that share the new password's key (only the new password when it is shorter than 72), and a replaced old name no longer signs in |
| Persistence.OwnedRowsAppend | lib/pg-persistence.js:146-148 | the owner filter distributes over appending a row |
| Persistence.OwnedRowsEmpty | lib/pg-persistence.js:146-148 | the owner-scoped select returns no rows exactly when the user owns no row in the table |
| Persistence.AddedActivityListedLast | lib/pg-persistence.js:12-20 | in table order, the owner's rows after an insert are their earlier rows followed by the new one |
| Persistence.AddActivityRaisesCount | lib/pg-persistence.js:107-112 | an insert raises the owner's count by exactly one and leaves every other user's count unchanged |
| Persistence.CompareAgainstHash | lib/pg-persistence.js:32 | a digest accepts exactly the passwords that agree with its password on the first 72 units; below 72 units it accepts that password alone |
| Persistence.LongPasswordExtensionsSignIn | lib/pg-persistence.js:54 | a password of 72 units or more opens its account together with every password that starts with its first 72 units |
| Validation.CheckTextField | activity-tracker.js:21-28 | the field is trimmed; no message exactly when the trimmed length is 1 to 50; otherwise one message, "required" when empty and "between 1 and 50" when too long |
| Validation.ValidateActivityForm | activity-tracker.js:153-166 | no message exactly when the trimmed title and category have 1 to 50 characters and date and minutes are non-empty; at most four messages; title and category come back trimmed |
| Validation.CheckUsername | activity-tracker.js:376-385 | no message exactly when the trimmed name is a non-empty alphanumeric word; an empty name gets only the emptiness message because of bail |
| Validation.ValidateAccountForm | activity-tracker.js:374-392 | no message exactly when the trimmed name is alphanumeric and the password is non-empty; the password is not trimmed |
| Validation.AcceptedUsernameIsTrimmed | activity-tracker.js:376-385 | an accepted name is its own trim, so it is stored as it is typed at sign-in |
| Validation.TextFieldIdempotent | activity-tracker.js:21-28 | a field that passed its chain passes it again unchanged |
| Validation.ActivityValidationIdempotent | activity-tracker.js:225-236 | re-validating an accepted, sanitized form accepts it unchanged |
| Sessions.Extract | activity-tracker.js:79-94 | the locals carry the sort state with defaults, the credentials, the saved path and the pending flash; the session keeps everything except the flash |
| Sessions.GatewayOf | lib/pg-persistence.js:6-9 | the gateway's account info is the session's username and password |
| Sessions.PushAll | activity-tracker.js:173 | every message is queued in order after those already queued, and nothing else changes |
| Sessions.Flip | activity-tracker.js:308 | ASC becomes DESC and anything else becomes ASC |
| Sessions.ToggleSort | activity-tracker.js:303-312 | the current column flips the order; another column is stored with order ASC; nothing else changes |
| Sessions.ToggleSortEffect | activity-tracker.js:303-312 | in terms of the sort in force: the same column flips the order, another column becomes current ascending |
| Sessions.ToggleTwiceRestores | activity-tracker.js:306-308 | sorting twice on the current column restores the order in force |
| Routes.AuthGate | activity-tracker.js:97-109 | saves the requested URL, queues the sign-in notice, redirects to sign-in and changes nothing else |
| Routes.ListActivities | activity-tracker.js:117-142 | renders exactly when the page is valid for the user's rows, with that page's window, the page-number array and the page; otherwise the invalid-page error |
| Routes.AddActivityRoute | activity-tracker.js:153-197 | an invalid form re-renders with its messages and no write; a valid one inserts the sanitized fields, queues the success notice and redirects to page 1; only the flash changes in the session |
| Routes.EditActivityForm | activity-tracker.js:200-220 | the form is pre-filled from an owned row with the id, otherwise "Activity not found." |
| Routes.EditActivityRoute | activity-tracker.js:223-275 | checks run in order: validation, then unchanged fields ("No edits were made."), then ownership ("Activity not found."), then the update with the success notice |
| Routes.DeleteActivityRoute | activity-tracker.js:278-288 | any row with the id is deleted with the success notice; with none, "This activity is not found." |
| Routes.SortRoute | activity-tracker.js:291-316 | a column off the allow-list or a page beyond ceil(count/5) fails; otherwise the sort state toggles and the client returns to the same page |
| Routes.SignIn | activity-tracker.js:324-355 | bad credentials re-render with "Invalid credentials."; good ones store the trimmed name, the flag and the password, keep the sort state, and redirect to the saved path (deleting it) or else page 1 |
| Routes.SignOut | activity-tracker.js:360-366 | removes exactly the three credential fields and redirects to sign-in |
| Routes.CreateAccountRoute | activity-tracker.js:374-434 | invalid form, name taken at the check, success and write failure each give their outcome; only the credentials and flash of the session change; activities are untouched |
| Routes.DeleteAccountRoute | activity-tracker.js:437-450 | removes the user's row, deletes only the username and signed-in flag from the session (the password, sort state and saved path stay), queues "Your account was successfully deleted." and redirects to sign-in; with no row, "Not found." |
| Routes.EditAccountForm | activity-tracker.js:453-463 | the form shows the credentials cached in the session |
| Routes.EditAccountRoute | activity-tracker.js:466-529 | validation, then "No edits were made." for the cached credentials, then the update: a conflict re-renders, no affected row reaches the error page, success moves the session to the new credentials |
| Invariants.SortStateOnlyChangedBySortRoute | activity-tracker.js:303-312 | no request other than the sort route changes the stored sort column or order |
| Invariants.ServeKeepsSortStateSafe | activity-tracker.js:295 | the stored sort column is always absent or allow-listed, and the order absent, ASC or DESC |
| Invariants.ListQueryIsSafe | lib/pg-persistence.js:145-151 | from any reachable session, the listing statement splices in only fixed sort keys and directions |
| Invariants.ServeKeepsCredentialsConsistent | activity-tracker.js:337-339 | a signed-in session always has a username |
| Invariants.ServeKeepsStoreWellFormed | lib/pg-persistence.js:12-20 | activity ids stay unique and below the sequence after every request |
| Invariants.OnlyActivityRoutesWriteActivities | activity-tracker.js:153-288 | only the add, edit and delete activity routes change the activity table |
| Invariants.SignedOutCannotWriteActivities | activity-tracker.js:97-109 | a session that is not signed in never changes the activity table |
| Invariants.GateSavesRequestedUrl | activity-tracker.js:97-109 | the gate redirects to sign-in, saves the URL, queues the notice and changes nothing else |
| Invariants.SignInRedirectsToSavedUrlOnce | activity-tracker.js:343-352 | after the gate, a sign-in returns to the saved URL and forgets it; the next sign-in goes to page 1 |
| Invariants.FailedSignInChangesNothing | activity-tracker.js:329-335 | bad credentials re-render with exactly "Invalid credentials." and leave session and store as they were |
| Invariants.SignOutKeepsSortState | activity-tracker.js:357-366 | sign-out clears the credentials and keeps the sort state in force and the saved path |
| Invariants.SignInKeepsSortState | activity-tracker.js:336-341 | a successful sign-in keeps the sort state |
| Invariants.SortSurvivesSignOutAndSignIn | activity-tracker.js:357-359 | the sort order in force before sign-out is in force after the next sign-in |
| Invariants.DeleteAccountKeepsCachedPassword | activity-tracker.js:440-447 | deleting the account signs out but the plaintext password stays in the session |
| Invariants.FirstPageAlwaysRenders | activity-tracker.js:125 | a signed-in user can always open page 1 |
| Invariants.SortWithoutActivitiesFails | activity-tracker.js:298-301 | with no activities every sort request reaches the error page |
| Invariants.SortReturnsToSamePage | activity-tracker.js:290-316 | a valid sort redirects to the page it came from, with the column and order toggled |
| Invariants.EditWritesOnlyRealChanges | activity-tracker.js:250-273 | the edit route writes only for a valid form that differs from an owned row, and then writes exactly that edit |
| Invariants.RepeatedEditIsNoOp | activity-tracker.js:262-264 | resubmitting an edit writes nothing and reports "No edits were made." |
| Invariants.DeleteReachesForeignActivity | activity-tracker.js:278-288 | a signed-in user deletes another user's activity by id |
| Invariants.TakenOnCheckRerenders | activity-tracker.js:410-413 | a name found by the existence check re-renders with "Sorry, this username is already taken. Please try again" and changes nothing |
| Invariants.TakenOnWriteRerenders | activity-tracker.js:424-427 | a conflict reported by the insert re-renders with "The username is taken. Please try again." and changes nothing |
| Invariants.OtherWriteFailureIsFatal | activity-tracker.js:428-430 | any other failure of the insert reaches the error page with that error |
| Invariants.CreateAccountSignsIn | activity-tracker.js:415-421 | a successful creation stores the digest under the trimmed name, signs the session in, and the credentials then authenticate |
| Invariants.RenameToTakenNameRerenders | activity-tracker.js:520-523 | renaming to another user's name re-renders with the conflict message and changes nothing |
| Invariants.SameAccountIsNoOp | activity-tracker.js:505-508 | submitting the cached credentials updates nothing and reports "No edits were made." |
| Invariants.EditAccountUpdatesSession | activity-tracker.js:510-517 | a successful account edit moves the session to the new credentials, which then authenticate |
| Invariants.NewActivityStored | activity-tracker.js:190-194 | a valid new activity is stored for the session's user and acknowledged on the next page |
| Invariants.FirstPageShowsOwnedRows | activity-tracker.js:117-139 | page 1 shows the first five of the user's rows in table order, with the page-number array |
| Invariants.FirstActivityIsListed | activity-tracker.js:183-194 | a user without activities who adds one sees exactly that one on page 1, with the acknowledgement |
| Invariants.NewAccountFirstActivity | activity-tracker.js:415-421 | with no row already under the new name (other users' rows may exist), create an account, add an activity, open page 1: the page lists exactly that activity |
| Invariants.CreateAddListScenario | activity-tracker.js:374-434 | account alice/pw1 on an empty store, then activity "Run", then page 1 lists exactly that activity with id 1 |

## Left out

- Express wiring is not modelled: routing by URL pattern, morgan, static files, body parsing and `app.listen`. The request is a datatype that names its route.
- Pug rendering is not modelled. A response names the view and the values handed to it.
- The cookie-backed session store is not modelled. The session is a value passed in and returned.
- The database driver wrapper and the `catchError` wrapper are not part of this model. A thrown error becomes the error response.
- Concurrency is reduced to one parameter: whether the account write throws. Interleavings of other statements are not modelled.
- bcrypt's cost and cipher are not modelled. A digest records the key it was computed from, and comparison reads that key back.
- Persistence.CompareAgainstHash: counts bcrypt's 72-unit key limit in characters. bcrypt counts bytes of the UTF-8 encoding, so for a password with non-ASCII characters the real limit falls sooner; for ASCII passwords the two agree.
- Persistence.CreateThenAuthenticate: its key is counted in characters, as for Persistence.CompareAgainstHash.
- Persistence.UpdateThenAuthenticate: its key is counted in characters, as for Persistence.CompareAgainstHash.
- Persistence.LongPasswordExtensionsSignIn: its key is counted in characters, as for Persistence.CompareAgainstHash.
- Persistence.LoadSortedActivities: rows come back in table order, not ORDER BY order. PostgreSQL's collation and ordering are outside the model; the statement text is modelled exactly.
- Persistence.GetActivity: `TO_CHAR` date formatting is not modelled. Dates are kept as submitted text.
- Persistence.AddActivity: always inserts a row. The `date_completed` and `min_to_complete` columns are typed DATE and INTEGER, and PostgreSQL rejects a value that does not parse as one, which reaches the error page. Column types are not modelled: both fields are kept as text.
- Persistence.IsSameActivity: compares the submitted text with the stored text. PostgreSQL compares typed values (so "030" equals 30) and raises on a value that does not parse. Column types are not modelled.
- Persistence.EditActivity: always updates a matching row. PostgreSQL's rejection of a malformed DATE or INTEGER is not modelled, for the same reason.
- Invariants.NewActivityStored: holds for every form the validators accept. PostgreSQL would still reject a malformed date or minutes value, because column types are not modelled.
- Invariants.FirstActivityIsListed: holds for every accepted form, with the same column-type gap as Invariants.NewActivityStored.
- Invariants.NewAccountFirstActivity: holds for every accepted form, with the same column-type gap as Invariants.NewActivityStored.
- Persistence.AddedActivityListedLast: a fact about table order. The listing orders rows with ORDER BY on the session's sort column, which the model does not reproduce.
- Invariants.FirstPageShowsOwnedRows: the first five rows are taken in table order. The listing orders rows with ORDER BY on the session's sort column, so the real page 1 holds the first five in that order, which the model does not reproduce.
- Persistence.GetActivityCount: returns a number. The driver returns `COUNT` as a string, and the sort route's division coerces it back.
- Persistence.UpdateAccount: a rename does not carry over to the user's activities, because the foreign-key behaviour belongs to the schema.
- Persistence.DeleteAccount: the user's activities are not cascaded away, for the same reason.
- Pagination.IsValidPageNum: unary plus on the URL segment is abstracted to NaN or infinity, a non-integer, or an integer. The parsing of the text is not modelled.
- Routes.DeleteActivityRoute: the id is an unbounded integer. `+req.params.activityId` can produce NaN, a fraction or a value outside PostgreSQL's integer range. PostgreSQL then raises "invalid input syntax for type integer" or "out of range", and the error page shows that error instead of "This activity is not found.". Those paths are not modelled.
- Routes.EditActivityForm: the id is an unbounded integer. A NaN, fractional or out-of-range id raises in PostgreSQL and reaches the error page with that error; this is not modelled.
- Routes.EditActivityRoute: the id is an unbounded integer. A NaN, fractional or out-of-range id raises in PostgreSQL and reaches the error page with that error; this is not modelled.
- Validation.CheckTextField: length is counted in code points, one per character, as the validator counts a surrogate pair. The validator also skips the variation selectors U+FE0E and U+FE0F, which the model counts.
- Routes.SignIn: the form fields are assumed present. A sign-in request without a `username` field throws a TypeError on `.trim()` (activity-tracker.js:326), which reaches the error page; the model takes the username as a string, so that path is not modelled.
- Console logging in the gate and the error handler is not modelled.

=== FILE: basics.dfy ===
/** Small value types shared by every module of the activity-tracker model. */
module Basics {

  /** A JavaScript value that may be `undefined` (an absent session field,
      an absent query row). */
  datatype Option<+T> = None | Some(value: T) {
    function GetOr(default: T): T {
      match this
      case Some(v) => v
      case None => default
    }
  }

  /** What JavaScript's unary plus makes of a route parameter such as
      `:pageNum`: NaN and the infinities are not finite, `"2.5"` is a finite
      fraction, and everything else is an integer. Floating point itself is
      not modelled. */
  datatype Number = NotFinite | Fraction | Integer(k: int)

  /** A thrown JavaScript error. `name` is what `String(error)` writes before
      the colon: "Error" for `new Error(...)`, "error" for the database
      driver's errors. */
  datatype Failure = Failure(name: string, message: string)

  /** `String(error)`. */
  function Describe(e: Failure): string {
    e.name + ": " + e.message
  }

  /** `new Error(message)`. */
  function Raise(message: string): Failure {
    Failure("Error", message)
  }

  /** The value of an operation that either returns or throws. */
  datatype Result<+T> = Ok(value: T) | Err(error: Failure)
}

=== FILE: invariants.dfy ===
/** Properties of whole requests: what every request preserves, what only
    some requests may change, and the multi-request contracts of the
    application (redirect after sign-in, sort state across sign-out, the
    username-conflict outcomes). */
module Invariants {
  import opened Basics
  import opened Text
  import opened Pagination
  import opened Persistence
  import opened Validation
  import opened Sessions
  import opened Routes

  // ---------------------------------------------------------------------
  // Invariants of every request

  /** The sort state a session can hold: absent, or a value the sort route
      writes. */
  ghost predicate SortStateSafe(s: Session) {
    && (s.sortColumn.None? || s.sortColumn.value in VALID_COLUMN_NAMES)
    && (s.sortAscend.None? || s.sortAscend.value in ["ASC", "DESC"])
  }

  /** A signed-in session always names its user. */
  ghost predicate CredentialsConsistent(s: Session) {
    s.signedIn ==> s.username.Some?
  }

  /** Only the sort route writes the sort state. */
  lemma SortStateOnlyChangedBySortRoute(url: string, req: Request, s: Session, db: Db, env: Env)
    requires !req.SortBy?
    ensures var r := Serve(url, req, s, db, env);
            r.session.sortColumn == s.sortColumn && r.session.sortAscend == s.sortAscend
  {
  }

  /** Every request keeps the sort state within the allow-list. */
  lemma ServeKeepsSortStateSafe(url: string, req: Request, s: Session, db: Db, env: Env)
    requires SortStateSafe(s)
    ensures SortStateSafe(Serve(url, req, s, db, env).session)
  {
    if !req.SortBy? {
      SortStateOnlyChangedBySortRoute(url, req, s, db, env);
    }
  }

  /** The listing statement of a session whose sort state is safe splices in
      only one of the fixed sort keys and directions. */
  lemma ListQueryIsSafe(s: Session, db: Db)
    requires SortStateSafe(s)
    ensures var (locals, _) := Extract(s);
            var q := LoadSortedActivities(GatewayOf(s), db, locals.sortColumn, locals.sortAscend).query;
            exists key, dir :: key in SAFE_SORT_KEYS && dir in {"ASC", "DESC"}
                               && q == SELECT_ACTIVITIES + " " + ("ORDER BY " + key + " " + dir)
  {
    var (locals, _) := Extract(s);
    assert locals.sortColumn in VALID_COLUMN_NAMES;
    assert locals.sortAscend in ["ASC", "DESC"];
    OrderByClauseIsSafe(locals.sortColumn, locals.sortAscend);
  }

  /** Every request keeps a signed-in session's username. */
  lemma ServeKeepsCredentialsConsistent(url: string, req: Request, s: Session, db: Db, env: Env)
    requires CredentialsConsistent(s)
    ensures CredentialsConsistent(Serve(url, req, s, db, env).session)
  {
  }

  /** Every request keeps activity ids unique and drawn from the sequence. */
  lemma ServeKeepsStoreWellFormed(url: string, req: Request, s: Session, db: Db, env: Env)
    requires WellFormed(db)
    ensures WellFormed(Serve(url, req, s, db, env).db)
  {
  }

  /** Only the add, edit and delete activity routes write the activity
      table. */
  lemma OnlyActivityRoutesWriteActivities(url: string, req: Request, s: Session, db: Db, env: Env)
    requires !req.NewActivity? && !req.EditActivitySubmit? && !req.DeleteActivitySubmit?
    ensures var r := Serve(url, req, s, db, env);
            r.db.activities == db.activities && r.db.nextId == db.nextId
  {
  }

  /** A session that is not signed in cannot change any activity. */
  lemma SignedOutCannotWriteActivities(url: string, req: Request, s: Session, db: Db, env: Env)
    requires !s.signedIn
    ensures Serve(url, req, s, db, env).db.activities == db.activities
  {
    if !req.NewActivity? && !req.EditActivitySubmit? && !req.DeleteActivitySubmit? {
      OnlyActivityRoutesWriteActivities(url, req, s, db, env);
    }
  }

  // ---------------------------------------------------------------------
  // Authentication and sessions

  /** The gate turns an unsigned session away from a protected route: the
      requested URL is saved, nothing else in the session or the store
      changes, and the client is sent to the sign-in page. */
  lemma GateSavesRequestedUrl(url: string, req: Request, s: Session, db: Db, env: Env)
    requires RequiresAuthentication(req) && !s.signedIn
    ensures var r := Serve(url, req, s, db, env);
            && r.response == Redirect(SIGN_IN_PATH)
            && r.session.path == Some(url)
            && r.session.flash == [Flash(Info, SIGN_IN_PROMPT)]
            && r.session.(path := s.path, flash := s.flash) == s
            && r.db == db
  {
  }

  /** Redirect after sign-in happens once: a sign-in after the gate returns to
      the saved URL and forgets it, and the next sign-in goes to the first
      page. */
  lemma SignInRedirectsToSavedUrlOnce(url: string, req: Request, s: Session, db: Db, env: Env,
                                      username: string, password: string)
    requires RequiresAuthentication(req) && !s.signedIn && url != ""
    requires Authenticate(db, Trim(username), password)
    ensures var r1 := Serve(url, req, s, db, env);
            var r2 := Serve(SIGN_IN_PATH, SignInSubmit(username, password), r1.session, r1.db, env);
            var r3 := Serve(SIGN_IN_PATH, SignInSubmit(username, password), r2.session, r2.db, env);
            && r1.response == Redirect(SIGN_IN_PATH)
            && r2.response == Redirect(url) && r2.session.signedIn && r2.session.path.None?
            && r2.session.username == Some(Trim(username)) && r2.session.password == Some(password)
            && r3.response == Redirect(FIRST_PAGE_PATH)
  {
  }

  /** A sign-in with credentials the store does not accept re-renders the
      form and changes neither the credentials nor the saved URL. */
  lemma FailedSignInChangesNothing(url: string, s: Session, db: Db, env: Env, username: string, password: string)
    requires !Authenticate(db, Trim(username), password)
    ensures var r := Serve(url, SignInSubmit(username, password), s, db, env);
            && r.response == Render(SignInView(Some(Trim(username))), [Flash(Error, INVALID_CREDENTIALS)])
            && r.session == s.(flash := []) && r.db == db
  {
    var (locals, s') := Extract(s);
    var r := Serve(url, SignInSubmit(username, password), s, db, env);
    assert r == SignIn(locals, s', db, username, password);
    assert s'.flash + [Flash(Error, INVALID_CREDENTIALS)] == [Flash(Error, INVALID_CREDENTIALS)];
  }

  /** Sign-out removes the three credential fields only: the sort state in
      force is the same afterwards. */
  lemma SignOutKeepsSortState(url: string, s: Session, db: Db, env: Env)
    ensures var r := Serve(url, SignOutSubmit, s, db, env);
            && !r.session.signedIn && r.session.username.None? && r.session.password.None?
            && r.session.sortColumn == s.sortColumn && r.session.sortAscend == s.sortAscend
            && EffectiveSort(r.session) == EffectiveSort(s)
            && r.session.path == s.path
            && r.response == Redirect(SIGN_IN_PATH) && r.db == db
  {
  }

  /** A successful sign-in leaves the sort state as it was. */
  lemma SignInKeepsSortState(url: string, s: Session, db: Db, env: Env, username: string, password: string)
    requires Authenticate(db, Trim(username), password)
    ensures var r := Serve(url, SignInSubmit(username, password), s, db, env);
            && r.session.signedIn && r.db == db
            && r.session.sortColumn == s.sortColumn && r.session.sortAscend == s.sortAscend
  {
    var (locals, s') := Extract(s);
    var r := Serve(url, SignInSubmit(username, password), s, db, env);
    assert r == SignIn(locals, s', db, username, password);
  }

  /** The sort order chosen before signing out is the one in force after
      signing back in. */
  lemma SortSurvivesSignOutAndSignIn(url: string, s: Session, db: Db, env: Env, username: string, password: string)
    requires Authenticate(db, Trim(username), password)
    ensures var r1 := Serve(url, SignOutSubmit, s, db, env);
            var r2 := Serve(url, SignInSubmit(username, password), r1.session, r1.db, env);
            r2.session.signedIn && EffectiveSort(r2.session) == EffectiveSort(s)
  {
    SignOutKeepsSortState(url, s, db, env);
    var r1 := Serve(url, SignOutSubmit, s, db, env);
    SignInKeepsSortState(url, r1.session, r1.db, env, username, password);
  }

  /** Deleting the account signs the session out but leaves the cached
      plaintext password in it, unlike sign-out. */
  lemma DeleteAccountKeepsCachedPassword(url: string, s: Session, db: Db, env: Env)
    requires s.signedIn && s.username.Some? && s.username.value in db.users
    ensures var r := Serve(url, DeleteAccountSubmit, s, db, env);
            && r.response == Redirect(SIGN_IN_PATH)
            && !r.session.signedIn && r.session.username.None?
            && r.session.password == s.password
            && s.username.value !in r.db.users
  {
  }

  // ---------------------------------------------------------------------
  // Pagination and sorting through the routes

  /** A signed-in user can always open page 1, even with no activities. */
  lemma FirstPageAlwaysRenders(url: string, s: Session, db: Db, env: Env)
    requires s.signedIn
    ensures Serve(url, ListPage(Integer(1)), s, db, env).response.Render?
  {
  }

  /** With no activities every sort request fails: the sort route checks the
      page against `ceil(0 / 5) = 0` pages, so even page 1 is rejected. */
  lemma SortWithoutActivitiesFails(url: string, column: string, page: Number, s: Session, db: Db, env: Env)
    requires s.signedIn && GetActivityCount(GatewayOf(s), db) == 0
    ensures Serve(url, SortBy(column, page), s, db, env).response.ErrorPage?
  {
    SortCheckVersusListCheck(0, page);
  }

  /** A successful sort request returns to the page it came from. */
  lemma SortReturnsToSamePage(url: string, column: string, k: int, s: Session, db: Db, env: Env)
    requires s.signedIn && column in VALID_COLUMN_NAMES
    requires 1 <= k <= SortPageLimit(GetActivityCount(GatewayOf(s), db))
    ensures var r := Serve(url, SortBy(column, Integer(k)), s, db, env);
            && r.response == Redirect(PagePath(k))
            && var (locals, _) := Extract(s);
               EffectiveSort(r.session)
                 == if column == locals.sortColumn then (column, Flip(locals.sortAscend)) else (column, "ASC")
  {
    ToggleSortEffect(s, column);
  }

  // ---------------------------------------------------------------------
  // Activity edits

  /** The edit route writes only when the form is valid, differs from the
      stored row, and the row belongs to the signed-in user. */
  lemma EditWritesOnlyRealChanges(url: string, id: int, form: Fields, s: Session, db: Db, env: Env)
    requires s.signedIn
    ensures var r := Serve(url, EditActivitySubmit(id, form), s, db, env);
            var checked := ValidateActivityForm(form);
            r.db != db ==>
              && checked.errors == []
              && !IsSameActivity(GatewayOf(s), db, id, checked.sanitized)
              && CheckIsValidActivity(GatewayOf(s), db, id)
              && r.db == EditActivity(GatewayOf(s), db, id, checked.sanitized).db
  {
  }

  /** A signed-in session's edit submission reaches the edit handler. */
  lemma ServeEditActivity(url: string, id: int, form: Fields, s: Session, db: Db, env: Env)
    requires s.signedIn
    ensures Serve(url, EditActivitySubmit(id, form), s, db, env)
              == EditActivityRoute(s.(flash := []), GatewayOf(s), db, id, form)
  {
  }

  /** After an accepted edit of an owned row, the row holds the sanitized
      fields, whichever branch the handler took. */
  lemma EditLeavesSameRow(s: Session, g: Gateway, db: Db, id: int, form: Fields)
    requires ValidateActivityForm(form).errors == [] && CheckIsValidActivity(g, db, id)
    ensures var r := EditActivityRoute(s, g, db, id, form);
            IsSameActivity(g, r.db, id, ValidateActivityForm(form).sanitized)
            && r.session.username == s.username && r.session.password == s.password
  {
    var sanitized := ValidateActivityForm(form).sanitized;
    EditThenIsSame(g, db, id, sanitized);
  }

  /** Submitting fields an owned row already holds writes nothing. */
  lemma SameEditIsNoOp(s: Session, g: Gateway, db: Db, id: int, form: Fields)
    requires ValidateActivityForm(form).errors == []
    requires IsSameActivity(g, db, id, ValidateActivityForm(form).sanitized)
    ensures var r := EditActivityRoute(s, g, db, id, form);
            && r.db == db && r.response == Redirect(FIRST_PAGE_PATH)
            && r.session.flash == s.flash + [Flash(Info, NO_EDITS)]
  {
  }

  /** Submitting the same edit twice: the second submission finds nothing to
      change, writes nothing and reports NO_EDITS. */
  lemma RepeatedEditIsNoOp(url: string, id: int, form: Fields, s: Session, db: Db, env: Env)
    requires s.signedIn
    requires ValidateActivityForm(form).errors == []
    requires CheckIsValidActivity(GatewayOf(s), db, id)
    ensures var r1 := Serve(url, EditActivitySubmit(id, form), s, db, env);
            var r2 := Serve(url, EditActivitySubmit(id, form), r1.session, r1.db, env);
            && r2.db == r1.db
            && r2.response == Redirect(FIRST_PAGE_PATH)
            && r2.session.flash == [Flash(Info, NO_EDITS)]
  {
    var g := GatewayOf(s);
    ServeEditActivity(url, id, form, s, db, env);
    var r1 := EditActivityRoute(s.(flash := []), g, db, id, form);
    EditLeavesSameRow(s.(flash := []), g, db, id, form);
    ServeEditActivity(url, id, form, r1.session, r1.db, env);
    SameEditIsNoOp(r1.session.(flash := []), g, r1.db, id, form);
  }

  /** Deleting goes by id alone: a signed-in user deletes an activity that
      belongs to someone else. */
  lemma DeleteReachesForeignActivity(url: string, a: Activity, s: Session, db: Db, env: Env)
    requires s.signedIn && WellFormed(db)
    requires a in db.activities && a.owner != s.username
    ensures var r := Serve(url, DeleteActivitySubmit(a.id), s, db, env);
            && r.response == Redirect(FIRST_PAGE_PATH)
            && a !in r.db.activities
  {
    DeleteRemovesForeignRow(GatewayOf(s), db, a);
  }

  // ---------------------------------------------------------------------
  // Account creation and edit

  /** Account creation is open to every session: the request reaches its
      handler with the extracted locals and session. */
  lemma ServeCreateAccount(url: string, username: string, password: string, s: Session, db: Db, env: Env)
    ensures Serve(url, CreateAccountSubmit(username, password), s, db, env)
              == CreateAccountRoute(Extract(s).0, s.(flash := []), db, env, username, password)
  {
  }

  /** The create-account handler turning a taken name away: the form comes
      back with exactly the one message queued after the extracted session's
      empty queue, and nothing is written. */
  lemma CreateRejected(locals: Locals, s: Session, db: Db, env: Env, username: string, password: string, message: string)
    requires s.flash == [] && ValidateAccountForm(username, password).errors == []
    requires message == TAKEN_ON_CHECK || message == TAKEN_ON_WRITE
    requires message == TAKEN_ON_CHECK ==> Trim(username) in db.users
    requires message == TAKEN_ON_WRITE ==>
               Trim(username) !in db.users && env.writeFault.Some? && IsUniqueConstraintViolation(env.writeFault.value)
    ensures var r := CreateAccountRoute(locals, s, db, env, username, password);
            && r.db == db && r.session == s
            && r.response == Render(CreateAccountView(Some(Trim(username))), [Flash(Error, message)])
  {
    var view := CreateAccountView(Some(Trim(username)));
    var r := CreateAccountRoute(locals, s, db, env, username, password);
    var s1 := PushFlash(s, Error, message);
    if message == TAKEN_ON_WRITE {
      assert r == Recover(s, db, env.writeFault.value, view);
    }
    assert r == RenderWithFlash(s1, db, view);
    assert s1.flash == [Flash(Error, message)];
  }

  /** A username the existence check finds taken re-renders the form with
      one error message and leaves the store and the session's credentials
      as they were. */
  lemma TakenOnCheckRerenders(url: string, username: string, password: string, s: Session, db: Db, env: Env)
    requires ValidateAccountForm(username, password).errors == []
    requires Trim(username) in db.users
    ensures var r := Serve(url, CreateAccountSubmit(username, password), s, db, env);
            && r.db == db
            && r.session == s.(flash := [])
            && r.response == Render(CreateAccountView(Some(Trim(username))), [Flash(Error, TAKEN_ON_CHECK)])
  {
    ServeCreateAccount(url, username, password, s, db, env);
    CreateRejected(Extract(s).0, s.(flash := []), db, env, username, password, TAKEN_ON_CHECK);
  }

  /** A username another writer takes between the check and the insert makes
      the insert break the uniqueness constraint: the form is re-rendered the
      same way, with a differently worded message. */
  lemma TakenOnWriteRerenders(url: string, username: string, password: string, s: Session, db: Db, env: Env)
    requires ValidateAccountForm(username, password).errors == []
    requires Trim(username) !in db.users
    requires env.writeFault.Some? && IsUniqueConstraintViolation(env.writeFault.value)
    ensures var r := Serve(url, CreateAccountSubmit(username, password), s, db, env);
            && r.db == db
            && r.session == s.(flash := [])
            && r.response == Render(CreateAccountView(Some(Trim(username))), [Flash(Error, TAKEN_ON_WRITE)])
  {
    ServeCreateAccount(url, username, password, s, db, env);
    CreateRejected(Extract(s).0, s.(flash := []), db, env, username, password, TAKEN_ON_WRITE);
  }

  /** Any other failure of the account write reaches the error page. */
  lemma OtherWriteFailureIsFatal(url: string, username: string, password: string, s: Session, db: Db, env: Env)
    requires ValidateAccountForm(username, password).errors == []
    requires Trim(username) !in db.users
    requires env.writeFault.Some? && !IsUniqueConstraintViolation(env.writeFault.value)
    ensures var r := Serve(url, CreateAccountSubmit(username, password), s, db, env);
            r.response == ErrorPage(ERROR_STATUS, env.writeFault.value) && r.db == db
  {
    ServeCreateAccount(url, username, password, s, db, env);
  }

  /** A successful creation stores the digest of the password under the
      trimmed name and signs the session in with those credentials. */
  lemma CreateAccountSignsIn(url: string, username: string, password: string, s: Session, db: Db, env: Env)
    requires ValidateAccountForm(username, password).errors == []
    requires Trim(username) !in db.users && env.writeFault.None?
    ensures var r := Serve(url, CreateAccountSubmit(username, password), s, db, env);
            var name := Trim(username);
            && r.session.signedIn && r.session.username == Some(name) && r.session.password == Some(password)
            && r.db.users == db.users[name := Hash(password, env.salt)]
            && r.db.activities == db.activities && r.db.nextId == db.nextId
            && Authenticate(r.db, name, password)
  {
    ServeCreateAccount(url, username, password, s, db, env);
    CreateThenAuthenticate(db, Trim(username), password, env.salt, password);
  }

  /** The edit-account handler on a conflicting rename: the update throws
      the duplicate-key error and the handler recovers from it. */
  lemma RenameConflictRecovered(s: Session, g: Gateway, db: Db, env: Env, username: string, password: string)
    requires g.username.Some? && g.username.value in db.users
    requires ValidateAccountForm(username, password).errors == []
    requires Trim(username) != g.username.value && Trim(username) in db.users
    requires env.writeFault.None?
    ensures EditAccountRoute(s, g, db, env, username, password)
              == RenderWithFlash(PushFlash(s, Error, TAKEN_ON_WRITE), db,
                                 EditAccountView(Some(Trim(username)), Some(password)))
  {
    var name := Trim(username);
    var view := EditAccountView(Some(name), Some(password));
    assert !IsSameAccount(g, name, password);
    assert UpdateAccount(g, db, name, password, env.salt) == Err(UniqueViolation(USERNAME_CONSTRAINT));
    UniqueViolationRecognised(USERNAME_CONSTRAINT);
    assert EditAccountRoute(s, g, db, env, username, password)
             == Recover(s, db, UniqueViolation(USERNAME_CONSTRAINT), view);
  }

  /** Renaming the account to a name another user holds re-renders the form
      with the write-conflict message and changes nothing. */
  lemma RenameToTakenNameRerenders(url: string, username: string, password: string, s: Session, db: Db, env: Env)
    requires s.signedIn && s.username.Some? && s.username.value in db.users
    requires ValidateAccountForm(username, password).errors == []
    requires Trim(username) != s.username.value && Trim(username) in db.users
    requires env.writeFault.None?
    ensures var r := Serve(url, EditAccountSubmit(username, password), s, db, env);
            && r.db == db && r.session == s.(flash := [])
            && r.response == Render(EditAccountView(Some(Trim(username)), Some(password)),
                                    [Flash(Error, TAKEN_ON_WRITE)])
  {
    var (locals, s') := Extract(s);
    var g := GatewayOf(s);
    var view := EditAccountView(Some(Trim(username)), Some(password));
    var r := Serve(url, EditAccountSubmit(username, password), s, db, env);
    assert r == EditAccountRoute(s', g, db, env, username, password);
    RenameConflictRecovered(s', g, db, env, username, password);
    var s1 := PushFlash(s', Error, TAKEN_ON_WRITE);
    assert r == RenderWithFlash(s1, db, view);
    assert s1.flash == [Flash(Error, TAKEN_ON_WRITE)];
  }

  /** Submitting the credentials the session already holds updates nothing. */
  lemma SameAccountIsNoOp(url: string, username: string, password: string, s: Session, db: Db, env: Env)
    requires s.signedIn && ValidateAccountForm(username, password).errors == []
    requires s.username == Some(Trim(username)) && s.password == Some(password)
    ensures var r := Serve(url, EditAccountSubmit(username, password), s, db, env);
            && r.db == db && r.response == Redirect(FIRST_PAGE_PATH)
            && r.session == s.(flash := [Flash(Info, NO_EDITS)])
  {
  }

  /** A successful account edit moves the session to the new credentials,
      which then sign in, and keeps it signed in. */
  lemma EditAccountUpdatesSession(url: string, username: string, password: string, s: Session, db: Db, env: Env)
    requires s.signedIn && s.username.Some? && s.username.value in db.users
    requires ValidateAccountForm(username, password).errors == []
    requires !(s.username == Some(Trim(username)) && s.password == Some(password))
    requires Trim(username) == s.username.value || Trim(username) !in db.users
    requires env.writeFault.None?
    ensures var r := Serve(url, EditAccountSubmit(username, password), s, db, env);
            && r.response == Redirect(FIRST_PAGE_PATH)
            && r.session.signedIn
            && r.session.username == Some(Trim(username)) && r.session.password == Some(password)
            && Authenticate(r.db, Trim(username), password)
  {
    var (locals, s') := Extract(s);
    var g := GatewayOf(s);
    var r := Serve(url, EditAccountSubmit(username, password), s, db, env);
    assert r == EditAccountRoute(s', g, db, env, username, password);
    UpdateThenAuthenticate(g, db, Trim(username), password, env.salt, password);
  }

  // ---------------------------------------------------------------------
  // A whole session

  /** A valid new activity from a signed-in session is stored for the
      session's user and acknowledged on the next page shown. */
  lemma NewActivityStored(url: string, form: Fields, s: Session, db: Db, env: Env)
    requires s.signedIn && ValidateActivityForm(form).errors == []
    ensures var r := Serve(url, NewActivity(form), s, db, env);
            && r.db == AddActivity(GatewayOf(s), db, ValidateActivityForm(form).sanitized).db
            && r.session == s.(flash := [Flash(Success, ACTIVITY_ADDED)])
            && r.response == Redirect(FIRST_PAGE_PATH)
  {
    var (locals, s') := Extract(s);
    var r := Serve(url, NewActivity(form), s, db, env);
    assert r == AddActivityRoute(s', GatewayOf(s), db, form);
  }

  /** Page 1 of a signed-in session shows the first rows the user owns, in
      table order, with the messages queued for it. */
  lemma FirstPageShowsOwnedRows(url: string, s: Session, db: Db, env: Env)
    requires s.signedIn
    ensures var rows := OwnedRows(GatewayOf(s), db.activities);
            var r := Serve(url, ListPage(Integer(1)), s, db, env);
            && r.response == Render(ActivitiesView(PageWindow(rows, 1), GenArraySequence(NumberOfPages(|rows|)), 1), s.flash)
            && r.session == s.(flash := []) && r.db == db
  {
  }

  /** A user without activities who adds one sees exactly that one on
      page 1, with the acknowledgement. */
  lemma FirstActivityIsListed(url1: string, url2: string, form: Fields, s: Session, db: Db, env: Env)
    requires s.signedIn && s.username.Some?
    requires GetActivityCount(GatewayOf(s), db) == 0
    requires ValidateActivityForm(form).errors == []
    ensures var r1 := Serve(url1, NewActivity(form), s, db, env);
            var r2 := Serve(url2, ListPage(Integer(1)), r1.session, r1.db, env);
            r2.response == Render(ActivitiesView([Activity(db.nextId, ValidateActivityForm(form).sanitized, s.username)], [1], 1),
                                  [Flash(Success, ACTIVITY_ADDED)])
  {
    var g := GatewayOf(s);
    var f := ValidateActivityForm(form).sanitized;
    var a := Activity(db.nextId, f, s.username);
    NewActivityStored(url1, form, s, db, env);
    var r1 := Serve(url1, NewActivity(form), s, db, env);
    assert GatewayOf(r1.session) == g;
    AddedActivityListedLast(g, db, f);
    assert OwnedRows(g, db.activities) == [];
    assert OwnedRows(g, r1.db.activities) == [a];
    FirstPageShowsOwnedRows(url2, r1.session, r1.db, env);
    assert PageWindow([a], 1) == [a];
    assert GenArraySequence(NumberOfPages(1)) == [1];
  }

  /** The scenario's account form passes validation as typed. */
  lemma ScenarioAccountFormValid(username: string, password: string)
    requires username == "alice" && password == "pw1"
    ensures Trim(username) == username
    ensures ValidateAccountForm(username, password).errors == []
  {
    ScenarioNameTrimmed(username);
    ScenarioNameAlphanumeric(username);
  }

  /** The scenario's name matches the username pattern. */
  lemma ScenarioNameAlphanumeric(username: string)
    requires username == "alice"
    ensures IsAlphanumericWord(username)
  {
  }

  /** The scenario's name has no whitespace to trim. */
  lemma ScenarioNameTrimmed(username: string)
    requires username == "alice"
    ensures Trim(username) == username
  {
    TrimKeepsTrimmed(username);
  }

  /** The scenario's activity form passes validation as typed. */
  lemma ScenarioActivityFormValid(form: Fields)
    requires form == Fields("Run", "Fitness", "2024-01-01", "30")
    ensures ValidateActivityForm(form).sanitized == form && ValidateActivityForm(form).errors == []
  {
    ScenarioFieldTrimmed(form.title);
    ScenarioFieldTrimmed(form.category);
  }

  /** The scenario's title and category have no whitespace to trim. */
  lemma ScenarioFieldTrimmed(field: string)
    requires field == "Run" || field == "Fitness"
    ensures Trim(field) == field
  {
    TrimKeepsTrimmed(field);
  }

  /** A new account's first activity: create the account, add an activity,
      open page 1, and the page shows exactly that activity, with the
      acknowledgement of the add. Other users' rows may be in the table; only
      rows left under the new name (which no cascade removes) would show. */
  lemma NewAccountFirstActivity(url1: string, url2: string, url3: string, username: string, password: string,
                                form: Fields, s: Session, db: Db, env: Env)
    requires ValidateAccountForm(username, password).errors == [] && Trim(username) !in db.users
    requires ValidateActivityForm(form).errors == []
    requires forall a :: a in db.activities ==> a.owner != Some(Trim(username))
    requires env.writeFault.None? && s.flash == []
    ensures var r1 := Serve(url1, CreateAccountSubmit(username, password), s, db, env);
            var r2 := Serve(url2, NewActivity(form), r1.session, r1.db, env);
            var r3 := Serve(url3, ListPage(Integer(1)), r2.session, r2.db, env);
            && r1.session.signedIn && r1.session.username == Some(Trim(username))
            && r3.response == Render(ActivitiesView([Activity(db.nextId, ValidateActivityForm(form).sanitized, Some(Trim(username)))], [1], 1),
                                     [Flash(Success, ACTIVITY_ADDED)])
  {
    CreateAccountSignsIn(url1, username, password, s, db, env);
    var r1 := Serve(url1, CreateAccountSubmit(username, password), s, db, env);
    OwnedRowsEmpty(GatewayOf(r1.session), r1.db.activities);
    FirstActivityIsListed(url2, url3, form, r1.session, r1.db, env);
  }

  /** The scenario's inputs: an empty store, a fresh session, and forms
      that pass validation as typed. */
  lemma ScenarioInputsAccepted(username: string, password: string, form: Fields, s: Session, db: Db, env: Env)
    requires username == "alice" && password == "pw1"
    requires form == Fields("Run", "Fitness", "2024-01-01", "30")
    requires db == Db(map[], [], 1) && env.writeFault.None? && s == FRESH_SESSION
    ensures ValidateAccountForm(username, password).errors == [] && Trim(username) == username
    ensures Trim(username) !in db.users && db.activities == [] && s.flash == []
    ensures ValidateActivityForm(form).errors == [] && ValidateActivityForm(form).sanitized == form
  {
    ScenarioAccountFormValid(username, password);
    ScenarioActivityFormValid(form);
  }

  /** Create account "alice" with password "pw1" on an empty store, add the
      activity "Run", open page 1: the page shows exactly that one activity. */
  lemma CreateAddListScenario(username: string, password: string, form: Fields, s: Session, db: Db, env: Env)
    requires username == "alice" && password == "pw1"
    requires form == Fields("Run", "Fitness", "2024-01-01", "30")
    requires db == Db(map[], [], 1) && env.writeFault.None? && s == FRESH_SESSION
    ensures var r1 := Serve("/users/create-account", CreateAccountSubmit(username, password), s, db, env);
            var r2 := Serve("/activity/new", NewActivity(form), r1.session, r1.db, env);
            var r3 := Serve("/activities/page/1", ListPage(Integer(1)), r2.session, r2.db, env);
            && r1.session.signedIn && r1.session.username == Some(username)
            && r3.response == Render(ActivitiesView([Activity(1, form, Some(username))], [1], 1),
                                     [Flash(Success, ACTIVITY_ADDED)])
  {
    ScenarioInputsAccepted(username, password, form, s, db, env);
    NewAccountFirstActivity("/users/create-account", "/activity/new", "/activities/page/1",
                            username, password, form, s, db, env);
  }
}

=== FILE: pagination.dfy ===
/** The pagination policy of the activity list: page numbers are checked
    against `[1..numberOfPages]`, and a valid page shows a window of at most
    five activities of the sorted list. */
module Pagination {
  import opened Basics

  const MAX_ACTIVITIES_PER_PAGE: nat := 5
  const MIN_PAGE_NUM: nat := 1

  function Min(a: int, b: int): int {
    if a <= b then a else b
  }

  /** `genArraySequence(num)`: the page numbers `[1, 2, ..., num]`, empty when
      `num` is below one. */
  function GenArraySequence(num: int): (r: seq<int>)
    ensures |r| == if num < 1 then 0 else num
    ensures forall i :: 0 <= i < |r| ==> r[i] == i + 1
  {
    if num < 1 then [] else GenArraySequence(num - 1) + [num]
  }

  /** Membership in the page-number array is the range test `1 <= k <= num`. */
  lemma InSequenceIffInRange(k: int, num: int)
    ensures k in GenArraySequence(num) <==> 1 <= k <= num
  {
    var a := GenArraySequence(num);
    if 1 <= k <= num {
      assert a[k - 1] == k;
    }
  }

  /** `isValidPageNum`: a non-finite number is rejected first; otherwise the
      number must be one of the page numbers. A finite fraction is never one
      of them, and neither is an integer outside `[1, numberOfPages]`. */
  function IsValidPageNum(requested: Number, numberOfPages: int): (r: bool)
    ensures r <==> requested.Integer? && 1 <= requested.k <= numberOfPages
  {
    match requested
    case NotFinite => false
    case Fraction => false
    case Integer(k) =>
      InSequenceIffInRange(k, numberOfPages);
      k in GenArraySequence(numberOfPages)
  }

  /** `Math.ceil(a / b)` for a non-negative count and a positive page size. */
  function CeilDiv(a: nat, b: nat): (r: nat)
    requires b > 0
    ensures r * b >= a
    ensures r == 0 || (r - 1) * b < a
  {
    (a + b - 1) / b
  }

  /** The list route's page count, `max(MIN_PAGE_NUM, ceil(len / 5))`: enough
      pages for every activity, never fewer than one, and no page beyond the
      first is left empty. */
  function NumberOfPages(len: nat): (r: nat)
    ensures r >= MIN_PAGE_NUM
    ensures r * MAX_ACTIVITIES_PER_PAGE >= len
    ensures r == MIN_PAGE_NUM || (r - 1) * MAX_ACTIVITIES_PER_PAGE < len
    ensures IsValidPageNum(Integer(1), r)
  {
    var c := CeilDiv(len, MAX_ACTIVITIES_PER_PAGE);
    if MIN_PAGE_NUM >= c then MIN_PAGE_NUM else c
  }

  /** `Array.prototype.slice(from, to)` for non-negative bounds: the indices
      past the end are clamped away. */
  function Slice<T>(s: seq<T>, from: nat, to: nat): (r: seq<T>)
    ensures |r| == if from < to && from < |s| then Min(to, |s|) - from else 0
    ensures forall i :: 0 <= i < |r| ==> r[i] == s[from + i]
  {
    if from >= |s| || from >= to then [] else s[from..Min(to, |s|)]
  }

  /** `firstActivityIndex` of page `p`: the index of its first activity. */
  function FirstIndex(p: int): int {
    (p - 1) * MAX_ACTIVITIES_PER_PAGE
  }

  /** The activities shown on page `p`: the slice starting at
      `(p - 1) * MAX_ACTIVITIES_PER_PAGE` of length at most
      `MAX_ACTIVITIES_PER_PAGE`. On any valid page of a non-empty list it holds
      at least one activity. */
  function PageWindow<T>(all: seq<T>, p: int): (r: seq<T>)
    requires p >= MIN_PAGE_NUM
    ensures |r| <= MAX_ACTIVITIES_PER_PAGE
    ensures |r| > 0 ==> FirstIndex(p) + |r| <= |all|
    ensures forall j :: 0 <= j < |r| ==> r[j] == all[FirstIndex(p) + j]
    ensures p <= NumberOfPages(|all|) && |all| > 0 ==> |r| > 0
    ensures p < NumberOfPages(|all|) ==> |r| == MAX_ACTIVITIES_PER_PAGE
  {
    var first := FirstIndex(p);
    Slice(all, first, first + MAX_ACTIVITIES_PER_PAGE)
  }

  /** What the list route hands to the view: the activities of the page, the
      array of all page numbers for the navigation links, and the page. */
  datatype Page<T> = Page(items: seq<T>, pageNumbers: seq<int>, current: int)

  /** The list route's pagination step: an invalid page number yields `None`
      (the route then throws "Invalid page number requested."); a valid one
      yields the page's window and the page numbers `1..n`. */
  function Paginate<T>(all: seq<T>, requested: Number): (r: Option<Page<T>>)
    ensures r.Some? <==> requested.Integer? && 1 <= requested.k <= NumberOfPages(|all|)
    ensures r.Some? ==>
              && r.value.current == requested.k
              && |r.value.pageNumbers| == NumberOfPages(|all|)
              && (forall i :: 0 <= i < |r.value.pageNumbers| ==> r.value.pageNumbers[i] == i + 1)
              && r.value.items == PageWindow(all, requested.k)
  {
    var numberOfPages := NumberOfPages(|all|);
    if !IsValidPageNum(requested, numberOfPages) then None
    else Some(Page(PageWindow(all, requested.k), GenArraySequence(numberOfPages), requested.k))
  }

  /** The windows of pages `1..n`, one after the other. */
  function Pages<T>(all: seq<T>, n: nat): seq<T> {
    if n == 0 then [] else Pages(all, n - 1) + PageWindow(all, n)
  }

  /** The first `n` pages show exactly the first `5 * n` activities. */
  lemma {:induction false} PagesArePrefix<T>(all: seq<T>, n: nat)
    ensures Pages(all, n) == all[..Min(n * MAX_ACTIVITIES_PER_PAGE, |all|)]
  {
    if n > 0 {
      PagesArePrefix(all, n - 1);
      var lo := Min((n - 1) * MAX_ACTIVITIES_PER_PAGE, |all|);
      var hi := Min(n * MAX_ACTIVITIES_PER_PAGE, |all|);
      var w := PageWindow(all, n);
      assert w == all[lo..hi];
      assert all[..lo] + all[lo..hi] == all[..hi];
    }
  }

  /** The pages partition the list: read in order, all valid pages together
      show every activity exactly once and in order. */
  lemma PagesPartitionList<T>(all: seq<T>)
    ensures Pages(all, NumberOfPages(|all|)) == all
  {
    var n := NumberOfPages(|all|);
    PagesArePrefix(all, n);
    assert n * MAX_ACTIVITIES_PER_PAGE >= |all|;
    assert Min(n * MAX_ACTIVITIES_PER_PAGE, |all|) == |all|;
    assert all[..|all|] == all;
  }

  /** Every activity is on a valid page, at the position its index predicts,
      and on no other page. */
  lemma PageOfIndex<T>(all: seq<T>, i: nat)
    requires i < |all|
    ensures IsValidPageNum(Integer(i / MAX_ACTIVITIES_PER_PAGE + 1), NumberOfPages(|all|))
    ensures PageWindow(all, i / MAX_ACTIVITIES_PER_PAGE + 1)[i % MAX_ACTIVITIES_PER_PAGE] == all[i]
    ensures forall q :: 1 <= q && FirstIndex(q) <= i < FirstIndex(q) + MAX_ACTIVITIES_PER_PAGE
              ==> q == i / MAX_ACTIVITIES_PER_PAGE + 1
  {
    var p := i / MAX_ACTIVITIES_PER_PAGE + 1;
    var w := PageWindow(all, p);
    assert FirstIndex(p) + i % MAX_ACTIVITIES_PER_PAGE == i;
    assert p <= NumberOfPages(|all|);
    assert i % MAX_ACTIVITIES_PER_PAGE < |w|;
  }

  /** The sort route's page limit, `Math.ceil(count / 5)`, with no floor. */
  function SortPageLimit(count: nat): nat {
    CeilDiv(count, MAX_ACTIVITIES_PER_PAGE)
  }

  /** The sort route's page check disagrees with the list route's only when
      there are no activities: then no page number passes it, not even 1,
      which the list route always accepts. */
  lemma SortCheckVersusListCheck(count: nat, requested: Number)
    ensures count > 0 ==>
              (IsValidPageNum(requested, SortPageLimit(count))
               <==> IsValidPageNum(requested, NumberOfPages(count)))
    ensures count == 0 ==> !IsValidPageNum(requested, SortPageLimit(count))
    ensures count == 0 ==> IsValidPageNum(Integer(1), NumberOfPages(count))
  {
    if count > 0 {
      assert SortPageLimit(count) >= 1;
    }
  }
}

=== FILE: persistence.dfy ===
/** `PgPersistence`: every SQL statement of the gateway as an operation on an
    abstract two-table store. `users` maps a username to its bcrypt digest;
    `activities` is the activity table in insertion order. The gateway object
    holds the username and plaintext password it copied from the session when
    it was built, and every statement but one is scoped by that username. */
module Persistence {
  import opened Basics
  import Text

  /** `SALT` in the source: the bcrypt cost factor handed to `bcrypt.hash`. */
  const SALT_ROUNDS: nat := 10

  /** bcrypt keys its cipher with at most this many units of the password
      and ignores the rest. */
  const BCRYPT_KEY_LIMIT: nat := 72

  /** The part of a password bcrypt reads: its first `BCRYPT_KEY_LIMIT`
      units. */
  function BcryptKey(password: string): (k: string)
    ensures |k| == if |password| < BCRYPT_KEY_LIMIT then |password| else BCRYPT_KEY_LIMIT
    ensures k == password[..|k|]
  {
    if |password| <= BCRYPT_KEY_LIMIT then password else password[..BCRYPT_KEY_LIMIT]
  }

  /** A bcrypt digest. The cipher itself is opaque to the model: a digest
      records its cost, the random salt drawn for it and the key it was
      computed from, and the model reads it only through `Compare`. */
  datatype Digest = Bcrypt(cost: nat, salt: nat, key: string)

  /** `bcrypt.hash(password, SALT)`, with the randomly drawn salt as a
      parameter. */
  function Hash(password: string, salt: nat): Digest {
    Bcrypt(SALT_ROUNDS, salt, BcryptKey(password))
  }

  /** `bcrypt.compare(password, digest)`: the password's key is the key the
      digest was computed from. */
  predicate Compare(password: string, d: Digest) {
    BcryptKey(password) == d.key
  }

  /** Two passwords are accepted by the same digests exactly when they
      agree on their first `BCRYPT_KEY_LIMIT` units; below that length a
      password is accepted by its own digest only. */
  lemma CompareAgainstHash(password: string, salt: nat, attempt: string)
    ensures (Compare(attempt, Hash(password, salt)))
            <==> (attempt[..|BcryptKey(attempt)|] == password[..|BcryptKey(password)|])
    ensures |password| < BCRYPT_KEY_LIMIT ==> (Compare(attempt, Hash(password, salt)) <==> attempt == password)
  {
    var k, ka := BcryptKey(password), BcryptKey(attempt);
    if |password| < BCRYPT_KEY_LIMIT && ka == k {
      assert |attempt| == |password|;
    }
  }

  /** The four columns an activity form fills in. Dates and minutes are kept
      as the submitted text. */
  datatype Fields = Fields(title: string, category: string, dateCompleted: string, minToComplete: string)

  /** One row of `activities`. `owner` is the `username` column; it is NULL
      (`None`) when the row was written by a gateway built from a session
      with no username. */
  datatype Activity = Activity(id: int, fields: Fields, owner: Option<string>)

  /** The two tables, and the next value of the `id` sequence. */
  datatype Db = Db(users: map<string, Digest>, activities: seq<Activity>, nextId: int)

  /** Activity ids are unique and were all drawn from the sequence. */
  ghost predicate WellFormed(db: Db) {
    && DistinctIds(db.activities)
    && (forall a :: a in db.activities ==> a.id < db.nextId)
  }

  /** The result of a mutating statement: the new store and `rowCount > 0`. */
  datatype Written = Written(db: Db, affected: bool)

  /** The gateway object: `this.username` and `this.password`, copied from
      the session by the constructor. */
  datatype Gateway = Gateway(username: Option<string>, password: Option<string>)

  /** `username = $n` bound to the gateway's username. With no username the
      parameter is NULL and the comparison is never true. */
  predicate Owns(g: Gateway, a: Activity) {
    g.username.Some? && a.owner == g.username
  }

  /** `WHERE id = $1 AND username = $2`. */
  predicate Matches(g: Gateway, a: Activity, id: int) {
    a.id == id && Owns(g, a)
  }

  // ---------------------------------------------------------------------
  // Scans of the activity table

  /** The rows of `WHERE username = $1`, in table order. */
  function OwnedRows(g: Gateway, acts: seq<Activity>): (r: seq<Activity>)
    ensures |r| <= |acts|
    ensures forall a :: a in r <==> a in acts && Owns(g, a)
  {
    if acts == [] then []
    else if Owns(g, acts[0]) then [acts[0]] + OwnedRows(g, acts[1..])
    else OwnedRows(g, acts[1..])
  }

  /** `rows[0]` of a select scoped by id and owner. */
  function FirstMatch(g: Gateway, acts: seq<Activity>, id: int): (r: Option<Activity>)
    ensures r.Some? <==> exists i :: 0 <= i < |acts| && Matches(g, acts[i], id)
    ensures r.Some? ==> r.value in acts && Matches(g, r.value, id)
  {
    if acts == [] then None
    else if Matches(g, acts[0], id) then Some(acts[0])
    else
      var r := FirstMatch(g, acts[1..], id);
      assert forall i :: 1 <= i < |acts| ==> acts[i] == acts[1..][i - 1];
      r
  }

  // ---------------------------------------------------------------------
  // Activity statements

  /** `addActivity`: an INSERT of one row carrying the four fields, the
      gateway's username as owner and a fresh id. */
  function AddActivity(g: Gateway, db: Db, f: Fields): (w: Written)
    ensures w.affected
    ensures w.db.users == db.users
    ensures |w.db.activities| == |db.activities| + 1
    ensures w.db.activities[..|db.activities|] == db.activities
    ensures var a := w.db.activities[|db.activities|];
            a.fields == f && a.owner == g.username
            && forall i :: 0 <= i < |db.activities| && WellFormed(db) ==> db.activities[i].id != a.id
    ensures WellFormed(db) ==> WellFormed(w.db)
  {
    var row := Activity(db.nextId, f, g.username);
    var acts := db.activities + [row];
    assert acts[..|db.activities|] == db.activities;
    Written(Db(db.users, acts, db.nextId + 1), true)
  }

  /** `checkIsValidActivity`: is there a row with this id owned by the
      gateway's user? */
  function CheckIsValidActivity(g: Gateway, db: Db, id: int): (r: bool)
    ensures r <==> exists i :: 0 <= i < |db.activities| && Matches(g, db.activities[i], id)
  {
    FirstMatch(g, db.activities, id).Some?
  }

  /** `getActivity`: the row with this id owned by the gateway's user, or
      `undefined`. */
  function GetActivity(g: Gateway, db: Db, id: int): (r: Option<Activity>)
    ensures r.Some? <==> CheckIsValidActivity(g, db, id)
    ensures r.Some? ==> r.value in db.activities && r.value.id == id && Owns(g, r.value)
  {
    FirstMatch(g, db.activities, id)
  }

  /** `getActivityCount`: `COUNT(id)` over the gateway user's rows. */
  function GetActivityCount(g: Gateway, db: Db): (r: nat)
    ensures r <= |db.activities|
    ensures r == 0 <==> forall a :: a in db.activities ==> !Owns(g, a)
  {
    var rows := OwnedRows(g, db.activities);
    assert rows != [] ==> rows[0] in rows;
    |rows|
  }

  /** `isSameActivity`: does the gateway user own a row with this id whose
      four fields are exactly the proposed ones? */
  function IsSameActivity(g: Gateway, db: Db, id: int, f: Fields): (r: bool)
    ensures r <==> exists i :: 0 <= i < |db.activities|
                               && Matches(g, db.activities[i], id) && db.activities[i].fields == f
    ensures r ==> CheckIsValidActivity(g, db, id)
  {
    IdenticalRow(g, db.activities, id, f)
  }

  function IdenticalRow(g: Gateway, acts: seq<Activity>, id: int, f: Fields): (r: bool)
    ensures r <==> exists i :: 0 <= i < |acts| && Matches(g, acts[i], id) && acts[i].fields == f
  {
    if acts == [] then false
    else if Matches(g, acts[0], id) && acts[0].fields == f then true
    else
      var r := IdenticalRow(g, acts[1..], id, f);
      assert forall i :: 1 <= i < |acts| ==> acts[i] == acts[1..][i - 1];
      r
  }

  /** The UPDATE of `editActivity` applied row by row. */
  function UpdateRows(g: Gateway, acts: seq<Activity>, id: int, f: Fields): (r: seq<Activity>)
    ensures |r| == |acts|
    ensures forall i :: 0 <= i < |acts| ==>
              r[i].id == acts[i].id && r[i].owner == acts[i].owner
              && r[i].fields == (if Matches(g, acts[i], id) then f else acts[i].fields)
  {
    if acts == [] then []
    else
      var head := if Matches(g, acts[0], id) then acts[0].(fields := f) else acts[0];
      [head] + UpdateRows(g, acts[1..], id, f)
  }

  /** `editActivity`: replaces the four fields of the row with this id owned
      by the gateway user. Ids, owners, the order of rows and every other row
      are untouched; the result says whether a row matched. */
  function EditActivity(g: Gateway, db: Db, id: int, f: Fields): (w: Written)
    ensures w.db.users == db.users && w.db.nextId == db.nextId
    ensures |w.db.activities| == |db.activities|
    ensures forall i :: 0 <= i < |db.activities| ==>
              && w.db.activities[i].id == db.activities[i].id
              && w.db.activities[i].owner == db.activities[i].owner
              && (!Matches(g, db.activities[i], id) ==> w.db.activities[i] == db.activities[i])
              && (Matches(g, db.activities[i], id) ==> w.db.activities[i].fields == f)
    ensures w.affected <==> CheckIsValidActivity(g, db, id)
    ensures WellFormed(db) ==> WellFormed(w.db)
  {
    Written(Db(db.users, UpdateRows(g, db.activities, id, f), db.nextId),
            CheckIsValidActivity(g, db, id))
  }

  /** No two rows share an id. */
  ghost predicate DistinctIds(acts: seq<Activity>) {
    forall i, j :: 0 <= i < j < |acts| ==> acts[i].id != acts[j].id
  }

  /** The rows that survive `DELETE ... WHERE id = $1`, in table order. */
  function RowsWithoutId(acts: seq<Activity>, id: int): (r: seq<Activity>)
    ensures |r| <= |acts|
    ensures forall a :: a in r <==> a in acts && a.id != id
    ensures |r| == |acts| <==> forall a :: a in acts ==> a.id != id
    ensures (forall a :: a in acts ==> a.id != id) ==> r == acts
  {
    if acts == [] then []
    else
      var rest := RowsWithoutId(acts[1..], id);
      assert forall i :: 1 <= i < |acts| ==> acts[i] == acts[1..][i - 1];
      if acts[0].id == id then rest else [acts[0]] + rest
  }

  /** Deleting rows keeps the remaining ids distinct. */
  lemma {:induction false} RowsWithoutIdKeepsDistinct(acts: seq<Activity>, id: int)
    ensures DistinctIds(acts) ==> DistinctIds(RowsWithoutId(acts, id))
  {
    if acts != [] && DistinctIds(acts) {
      var tail := acts[1..];
      assert DistinctIds(tail) by {
        forall i, j | 0 <= i < j < |tail| ensures tail[i].id != tail[j].id {
          assert tail[i] == acts[i + 1] && tail[j] == acts[j + 1];
        }
      }
      RowsWithoutIdKeepsDistinct(tail, id);
      var rest := RowsWithoutId(tail, id);
      if acts[0].id != id {
        var r := [acts[0]] + rest;
        forall i, j | 0 <= i < j < |r| ensures r[i].id != r[j].id {
          if i == 0 {
            assert r[j] in tail;
            var k :| 0 <= k < |tail| && tail[k] == r[j];
            assert acts[k + 1] == r[j];
          } else {
            assert r[i] == rest[i - 1] && r[j] == rest[j - 1];
          }
        }
      }
    }
  }

  /** `deleteActivity`: `DELETE FROM activities WHERE id = $1`. The statement
      filters on the id alone, so the gateway's username plays no part: a
      row owned by any user is removed. */
  function DeleteActivity(g: Gateway, db: Db, id: int): (w: Written)
    ensures w.db.users == db.users && w.db.nextId == db.nextId
    ensures forall a :: a in w.db.activities <==> a in db.activities && a.id != id
    ensures w.affected <==> exists a :: a in db.activities && a.id == id
    ensures !w.affected ==> w.db == db
    ensures WellFormed(db) ==> WellFormed(w.db)
  {
    var rest := RowsWithoutId(db.activities, id);
    RowsWithoutIdKeepsDistinct(db.activities, id);
    Written(Db(db.users, rest, db.nextId), |rest| < |db.activities|)
  }

  // ---------------------------------------------------------------------
  // Sorted listing

  const VALID_COLUMN_NAMES: seq<string> := ["title", "category", "date_completed", "min_to_complete"]

  /** The text columns, which are compared case-insensitively. */
  const TEXT_COLUMNS: seq<string> := ["title", "category"]

  const SELECT_ACTIVITIES: string :=
    "SELECT id, title, category, TO_CHAR(date_completed, 'MM/DD/YYYY') AS date, "
    + "min_to_complete, username FROM activities "
    + "WHERE username = $1"

  /** The sort key of the ORDER BY clause: a text column is wrapped in
      `lower(...)`, any other column name is used as it is. */
  function SortKey(column: string): (r: string)
    ensures column in TEXT_COLUMNS ==> r == "lower(" + column + ")"
    ensures column !in TEXT_COLUMNS ==> r == column
  {
    if column in TEXT_COLUMNS then "lower(" + column + ")" else column
  }

  /** `[GET_ACTIVITIES, "ORDER BY", sortColumn, ascend].join(" ")` with the
      base query removed: the part of the statement built by concatenation. */
  function OrderByClause(column: string, ascend: string): string {
    "ORDER BY " + SortKey(column) + " " + ascend
  }

  /** The sort keys an allow-listed column can produce, written out. */
  const SAFE_SORT_KEYS: set<string> := {"lower(title)", "lower(category)", "date_completed", "min_to_complete"}

  /** The statement `loadSortedActivities` sends, and the rows it gets back:
      the gateway user's rows. The order the database imposes is not part of
      the model; the rows come back in table order. */
  datatype Listing = Listing(query: string, rows: seq<Activity>)

  function LoadSortedActivities(g: Gateway, db: Db, column: string, ascend: string): (r: Listing)
    ensures r.query == SELECT_ACTIVITIES + " " + OrderByClause(column, ascend)
    ensures forall a :: a in r.rows <==> a in db.activities && Owns(g, a)
    ensures |r.rows| == GetActivityCount(g, db)
  {
    Listing(SELECT_ACTIVITIES + " " + OrderByClause(column, ascend), OwnedRows(g, db.activities))
  }

  /** An allow-listed column yields one of four fixed sort keys. */
  lemma SortKeyIsSafe(column: string)
    requires column in VALID_COLUMN_NAMES
    ensures SortKey(column) in SAFE_SORT_KEYS
  {
    if column == "title" {
      assert SortKey(column) == "lower(title)";
    } else if column == "category" {
      assert SortKey(column) == "lower(category)";
    }
  }

  /** Only an allow-listed column and direction reach the statement as text:
      for them the concatenated clause is built from one of four fixed sort
      keys and one of two fixed directions, so no request text is ever
      spliced into the SQL. */
  lemma OrderByClauseIsSafe(column: string, ascend: string)
    requires column in VALID_COLUMN_NAMES && ascend in ["ASC", "DESC"]
    ensures exists key, dir :: key in SAFE_SORT_KEYS && dir in {"ASC", "DESC"}
              && OrderByClause(column, ascend) == "ORDER BY " + key + " " + dir
  {
    SortKeyIsSafe(column);
    var key := SortKey(column);
    assert ascend in {"ASC", "DESC"};
    assert OrderByClause(column, ascend) == "ORDER BY " + key + " " + ascend;
  }

  // ---------------------------------------------------------------------
  // Account statements

  /** The text of the error PostgreSQL reports for a duplicate key. */
  const UNIQUE_VIOLATION_PHRASE: string := "duplicate key value violates unique constraint"

  /** The uniqueness constraint on `users.username`. The schema is not part of
      the model, so the name is illustrative; only the phrase above matters. */
  const USERNAME_CONSTRAINT: string := "users_pkey"

  /** The database driver's error for a write that breaks a uniqueness
      constraint. */
  function UniqueViolation(constraint: string): Failure {
    Failure("error", UNIQUE_VIOLATION_PHRASE + " \"" + constraint + "\"")
  }

  /** `isUniqueConstraintViolation`: the phrase occurs anywhere in
      `String(error)`. */
  function IsUniqueConstraintViolation(e: Failure): (r: bool)
    ensures r <==> exists j: nat :: Text.OccursAt(Describe(e), UNIQUE_VIOLATION_PHRASE, j)
  {
    Text.Contains(Describe(e), UNIQUE_VIOLATION_PHRASE)
  }

  /** The driver's duplicate-key error is always recognised. */
  lemma UniqueViolationRecognised(constraint: string)
    ensures IsUniqueConstraintViolation(UniqueViolation(constraint))
  {
    var d := Describe(UniqueViolation(constraint));
    assert Text.OccursAt(d, UNIQUE_VIOLATION_PHRASE, 7);
  }

  /** The phrase begins with a `d`, a letter the `"Error: "` prefix lacks. */
  lemma PhraseStartsWithD()
    ensures |UNIQUE_VIOLATION_PHRASE| > 0 && UNIQUE_VIOLATION_PHRASE[0] == 'd'
  {
    var head, rest := "duplicate key value violates unique", " constraint";
    assert UNIQUE_VIOLATION_PHRASE == head + rest;
    assert (head + rest)[0] == head[0];
  }

  /** An `Error` whose message is shorter than the phrase is never taken for
      a uniqueness conflict: the handlers' own errors are rethrown. The
      phrase cannot fit inside the message, and it cannot start inside the
      `"Error: "` prefix, which holds no `d`. */
  lemma ShortErrorNotRecognised(message: string)
    requires |message| < |UNIQUE_VIOLATION_PHRASE|
    ensures !IsUniqueConstraintViolation(Raise(message))
  {
    var d := Describe(Raise(message));
    PhraseStartsWithD();
    forall j: nat
      ensures !Text.OccursAt(d, UNIQUE_VIOLATION_PHRASE, j)
    {
      if j + |UNIQUE_VIOLATION_PHRASE| <= |d| {
        assert d[j..j + |UNIQUE_VIOLATION_PHRASE|][0] == d[j] == "Error: "[j];
      }
    }
  }

  /** `authenticate`: false when no user row has the name; otherwise the
      bcrypt comparison with the stored digest. */
  function Authenticate(db: Db, username: string, password: string): (r: bool)
    ensures r <==> username in db.users && Compare(password, db.users[username])
  {
    if username !in db.users then false
    else Compare(password, db.users[username])
  }

  /** `checkIfUsernameExists`. */
  function CheckIfUsernameExists(db: Db, username: string): (r: bool)
    ensures r <==> exists u :: u in db.users && u == username
  {
    username in db.users
  }

  /** `createAccount`: inserts the username with the digest of the password.
      A name already present breaks the uniqueness constraint and the
      statement throws. */
  function CreateAccount(db: Db, username: string, password: string, salt: nat): (r: Result<Written>)
    ensures r.Ok? ==> r.value.db.activities == db.activities && r.value.db.nextId == db.nextId
    ensures username in db.users ==> r == Err(UniqueViolation(USERNAME_CONSTRAINT))
    ensures username !in db.users ==>
              && r.Ok? && r.value.affected
              && r.value.db.users.Keys == db.users.Keys + {username}
              && r.value.db.users[username] == Hash(password, salt)
              && (forall u :: u in db.users ==> r.value.db.users[u] == db.users[u])
              && r.value.db.activities == db.activities && r.value.db.nextId == db.nextId
  {
    if username in db.users then Err(UniqueViolation(USERNAME_CONSTRAINT))
    else Ok(Written(db.(users := db.users[username := Hash(password, salt)]), true))
  }

  /** `updateAccount`: rewrites the row keyed by the gateway's username with
      the new name and the digest of the new password. No such row leaves the
      store as it is and reports no row affected; a new name held by another
      row breaks the uniqueness constraint and the statement throws. The
      activities' `username` column is left as it is: the schema's
      referential rules are not part of the model. */
  function UpdateAccount(g: Gateway, db: Db, username: string, password: string, salt: nat): (r: Result<Written>)
    ensures r.Ok? ==> r.value.db.activities == db.activities && r.value.db.nextId == db.nextId
    ensures g.username.None? || g.username.value !in db.users ==> r == Ok(Written(db, false))
    ensures g.username.Some? && g.username.value in db.users ==>
              if username != g.username.value && username in db.users
              then r == Err(UniqueViolation(USERNAME_CONSTRAINT))
              else
                && r.Ok? && r.value.affected
                && r.value.db.users.Keys == db.users.Keys - {g.username.value} + {username}
                && r.value.db.users[username] == Hash(password, salt)
                && (forall u :: u in db.users && u != g.username.value ==> r.value.db.users[u] == db.users[u])
                && r.value.db.activities == db.activities
  {
    if g.username.None? || g.username.value !in db.users then Ok(Written(db, false))
    else
      var current := g.username.value;
      if username != current && username in db.users then Err(UniqueViolation(USERNAME_CONSTRAINT))
      else
        var others := map u | u in db.users && u != current :: db.users[u];
        Ok(Written(db.(users := others[username := Hash(password, salt)]), true))
  }

  /** `deleteAccount`: removes the row keyed by the gateway's username. The
      user's activities are left in place: the cascade is the schema's and
      is not part of the model. */
  function DeleteAccount(g: Gateway, db: Db): (w: Written)
    ensures w.affected <==> g.username.Some? && g.username.value in db.users
    ensures !w.affected ==> w.db == db
    ensures w.affected ==> w.db.users.Keys == db.users.Keys - {g.username.value}
    ensures forall u :: u in w.db.users ==> u in db.users && w.db.users[u] == db.users[u]
    ensures w.db.activities == db.activities && w.db.nextId == db.nextId
  {
    if g.username.None? || g.username.value !in db.users then Written(db, false)
    else
      var remaining := map u | u in db.users && u != g.username.value :: db.users[u];
      Written(db.(users := remaining), true)
  }

  /** `getAccountInfo`: the credentials copied from the session, not a read
      of the store. */
  function GetAccountInfo(g: Gateway): (r: (Option<string>, Option<string>))
    ensures r.0 == g.username && r.1 == g.password
  {
    (g.username, g.password)
  }

  /** `isSameAccount`: both strictly equal to the copied credentials. A
      submitted string is never `===` to `undefined`. */
  function IsSameAccount(g: Gateway, username: string, password: string): (r: bool)
    ensures r <==> GetAccountInfo(g) == (Some(username), Some(password))
  {
    g.username == Some(username) && g.password == Some(password)
  }

  // ---------------------------------------------------------------------
  // Statements read back

  /** Rows that do not match are skipped by a scoped select. */
  lemma {:induction false} FirstMatchSkipsUnmatched(g: Gateway, acts: seq<Activity>, tail: seq<Activity>, id: int)
    requires forall a :: a in acts ==> !Matches(g, a, id)
    ensures FirstMatch(g, acts + tail, id) == FirstMatch(g, tail, id)
  {
    if acts != [] {
      assert acts[0] in acts;
      assert (acts + tail)[0] == acts[0];
      assert (acts + tail)[1..] == acts[1..] + tail;
      assert !Matches(g, (acts + tail)[0], id);
      assert FirstMatch(g, acts + tail, id) == FirstMatch(g, acts[1..] + tail, id);
      FirstMatchSkipsUnmatched(g, acts[1..], tail, id);
    } else {
      assert acts + tail == tail;
    }
  }

  /** Adding an activity and reading it back by the id it was given returns
      the four fields, owned by the user who added it. */
  lemma AddThenGetActivity(g: Gateway, db: Db, f: Fields)
    requires WellFormed(db) && g.username.Some?
    ensures var w := AddActivity(g, db, f);
            GetActivity(g, w.db, db.nextId) == Some(Activity(db.nextId, f, g.username))
  {
    var row := Activity(db.nextId, f, g.username);
    var w := AddActivity(g, db, f);
    assert w.db.activities == db.activities + [row];
    FirstMatchSkipsUnmatched(g, db.activities, [row], db.nextId);
  }

  /** After an edit of a row the user owns, the proposed fields are the
      stored ones: submitting them again is "no edits". */
  lemma EditThenIsSame(g: Gateway, db: Db, id: int, f: Fields)
    requires CheckIsValidActivity(g, db, id)
    ensures IsSameActivity(g, EditActivity(g, db, id, f).db, id, f)
  {
    var i :| 0 <= i < |db.activities| && Matches(g, db.activities[i], id);
    var w := EditActivity(g, db, id, f);
    assert Matches(g, w.db.activities[i], id) && w.db.activities[i].fields == f;
  }

  /** `deleteActivity` removes a row the gateway's user does not own, even
      though every other activity statement treats that row as absent. */
  lemma DeleteRemovesForeignRow(g: Gateway, db: Db, a: Activity)
    requires a in db.activities && !Owns(g, a) && WellFormed(db)
    ensures !CheckIsValidActivity(g, db, a.id)
    ensures var w := DeleteActivity(g, db, a.id);
            w.affected && a !in w.db.activities
  {
  }

  /** After creation the name signs in with exactly the passwords whose
      first `BCRYPT_KEY_LIMIT` units are the chosen password's; a password
      shorter than that signs in alone. */
  lemma CreateThenAuthenticate(db: Db, username: string, password: string, salt: nat, attempt: string)
    requires username !in db.users
    ensures var after := CreateAccount(db, username, password, salt).value.db;
            && (Authenticate(after, username, attempt) <==> BcryptKey(attempt) == BcryptKey(password))
            && (|password| < BCRYPT_KEY_LIMIT ==> (Authenticate(after, username, attempt) <==> attempt == password))
  {
    CompareAgainstHash(password, salt, attempt);
  }

  /** After an account update the new name signs in with the passwords that
      share the new password's key (with the new password alone when it is
      shorter than the limit), and a changed old name no longer signs in. */
  lemma UpdateThenAuthenticate(g: Gateway, db: Db, username: string, password: string, salt: nat, attempt: string)
    requires g.username.Some? && g.username.value in db.users
    requires username == g.username.value || username !in db.users
    ensures var after := UpdateAccount(g, db, username, password, salt).value.db;
            && (Authenticate(after, username, attempt) <==> BcryptKey(attempt) == BcryptKey(password))
            && (|password| < BCRYPT_KEY_LIMIT ==> (Authenticate(after, username, attempt) <==> attempt == password))
            && (username != g.username.value ==> !Authenticate(after, g.username.value, attempt))
  {
    CompareAgainstHash(password, salt, attempt);
  }

  /** A password of `BCRYPT_KEY_LIMIT` units or more is not the only one
      that opens its account: any extension of its key opens it too. */
  lemma LongPasswordExtensionsSignIn(db: Db, username: string, password: string, salt: nat, extra: string)
    requires username !in db.users && |password| >= BCRYPT_KEY_LIMIT
    ensures Authenticate(CreateAccount(db, username, password, salt).value.db,
                         username, password[..BCRYPT_KEY_LIMIT] + extra)
  {
    var attempt := password[..BCRYPT_KEY_LIMIT] + extra;
    assert attempt[..BCRYPT_KEY_LIMIT] == password[..BCRYPT_KEY_LIMIT];
    CompareAgainstHash(password, salt, attempt);
  }

  /** The owner filter distributes over appending a row. */
  lemma {:induction false} OwnedRowsAppend(g: Gateway, acts: seq<Activity>, a: Activity)
    ensures OwnedRows(g, acts + [a]) == OwnedRows(g, acts) + (if Owns(g, a) then [a] else [])
  {
    if acts == [] {
      assert acts + [a] == [a];
    } else {
      assert (acts + [a])[1..] == acts[1..] + [a];
      OwnedRowsAppend(g, acts[1..], a);
    }
  }

  /** The owner filter selects nothing exactly when the user owns no row. */
  lemma {:induction false} OwnedRowsEmpty(g: Gateway, acts: seq<Activity>)
    ensures OwnedRows(g, acts) == [] <==> forall a :: a in acts ==> !Owns(g, a)
  {
    if acts != [] {
      assert acts[0] in acts;
      assert forall a :: a in acts[1..] ==> a in acts;
      OwnedRowsEmpty(g, acts[1..]);
    }
  }

  /** A new activity raises its owner's count by one and leaves every other
      user's count as it was. */
  lemma AddActivityRaisesCount(g: Gateway, h: Gateway, db: Db, f: Fields)
    requires g.username.Some?
    ensures GetActivityCount(h, AddActivity(g, db, f).db)
              == GetActivityCount(h, db) + if h.username == g.username then 1 else 0
  {
    OwnedRowsAppend(h, db.activities, Activity(db.nextId, f, g.username));
  }

  /** The existence check answers yes exactly for the names whose insert
      would break the uniqueness constraint. */
  lemma UsernameExistsIffInsertConflicts(db: Db, username: string, password: string, salt: nat)
    ensures (CheckIfUsernameExists(db, username))
            <==> (CreateAccount(db, username, password, salt) == Err(UniqueViolation(USERNAME_CONSTRAINT)))
  {
  }

  /** In the activity table a signed-in user's new row follows their earlier
      rows. This is the table's order, which the owner filter keeps; the
      listing's ORDER BY is not modelled. */
  lemma AddedActivityListedLast(g: Gateway, db: Db, f: Fields)
    requires g.username.Some?
    ensures OwnedRows(g, AddActivity(g, db, f).db.activities)
            == OwnedRows(g, db.activities) + [Activity(db.nextId, f, g.username)]
  {
    OwnedRowsAppend(g, db.activities, Activity(db.nextId, f, g.username));
  }
}

=== FILE: routes.dfy ===
/** The route handlers of the application, each a pure transition from the
    session and the store to a new session, a new store and a response, and
    `Serve`, which runs the per-request middleware, the authentication gate
    and the handler the request names. */
module Routes {
  import opened Basics
  import opened Text
  import opened Pagination
  import opened Persistence
  import opened Validation
  import opened Sessions

  /** The views the handlers render and the values they hand them. */
  datatype View =
    | ActivitiesView(activities: seq<Activity>, pageNumbers: seq<int>, currentPage: int)
    | AddActivityView(submitted: Option<Fields>)
    | EditActivityView(form: Fields, activityId: int)
    | SignInView(username: Option<string>)
    | CreateAccountView(username: Option<string>)
    | SuccessCreateAccountView
    | EditAccountView(newUsername: Option<string>, newPassword: Option<string>)

  /** What the client gets back: a rendered view with the flash messages it
      shows, a redirect, or the error view of the final error handler. */
  datatype Response =
    | Render(view: View, flash: seq<Flash>)
    | Redirect(path: string)
    | ErrorPage(status: int, error: Failure)

  /** The status of every error page. */
  const ERROR_STATUS: int := 404

  const ACTIVITIES_PATH: string := "/activities/page/"
  const FIRST_PAGE_PATH: string := "/activities/page/1"
  const SIGN_IN_PATH: string := "/users/signin"

  // Messages of the flash queue and of the error page, as the routes word them.

  /** The flash of the authentication gate. */
  const SIGN_IN_PROMPT: string := "Please sign in order to access your profile."

  /** The error of a page number outside the list. */
  const INVALID_PAGE: string := "Invalid page number requested."
  const ACTIVITY_ADDED: string := "The activity has been added."

  /** The error of an edit of an activity the user does not own. */
  const ACTIVITY_NOT_FOUND: string := "Activity not found."

  /** The flash of an edit that changes nothing. */
  const NO_EDITS: string := "No edits were made."
  const ACTIVITY_CHANGED: string := "The activity has been changed."

  /** The error of a write that matched no row. */
  const NOT_FOUND: string := "Not found."
  const ACTIVITY_DELETED: string := "The activity has been successfully deleted"

  /** The error of a delete that matched no row. */
  const DELETE_NOT_FOUND: string := "This activity is not found."

  /** The errors of the sort route. */
  const INVALID_COLUMN: string := "Invalid Column Name."
  const INVALID_SORT_PAGE: string := "Invalid Page Number."

  /** The flashes of sign-in. */
  const INVALID_CREDENTIALS: string := "Invalid credentials."
  const WELCOME: string := "Welcome!"

  /** The flash of the create-account form when the name is already in the table. */
  const TAKEN_ON_CHECK: string := "Sorry, this username is already taken. Please try again"

  /** The flash of `catch` when a write hit the uniqueness constraint. */
  const TAKEN_ON_WRITE: string := "The username is taken. Please try again."

  /** The errors of an account write that changed no row. */
  const CREATE_FAILED: string := "Unable to create the account"
  const UPDATE_FAILED: string := "Unable to update the account"
  const ACCOUNT_DELETED: string := "Your account was successfully deleted."
  const ACCOUNT_CHANGED: string := "The account info has been changed."

  /** The error of a path no route matches. */
  const UNKNOWN_PATH: string := "Cannot get this path."

  /** `/activities/page/${pageNum}`. */
  function PagePath(page: nat): string {
    ACTIVITIES_PATH + NatToDecimal(page)
  }

  /** The session, the store and the response after one request. */
  datatype Step = Step(session: Session, db: Db, response: Response)

  /** What the model leaves to the world outside the request: the salt
      bcrypt draws, and whether the account write of this request throws
      instead of running (another writer took the username first, or the
      database failed). */
  datatype Env = Env(salt: nat, writeFault: Option<Failure>)

  /** A thrown error reaching the final error handler. */
  function Fail(s: Session, db: Db, e: Failure): (r: Step)
    ensures r.response.ErrorPage? && r.response.status == ERROR_STATUS && r.response.error == e
    ensures r.session == s && r.db == db
  {
    Step(s, db, ErrorPage(ERROR_STATUS, e))
  }

  /** `res.render(view, {..., flash: req.flash()})`: the view shows the
      messages queued during this request, and the queue is emptied. */
  function RenderWithFlash(s: Session, db: Db, view: View): (r: Step)
    ensures r.response == Render(view, s.flash)
    ensures r.session == s.(flash := []) && r.db == db
  {
    var (messages, s') := TakeFlash(s);
    Step(s', db, Render(view, messages))
  }

  // ---------------------------------------------------------------------
  // Middleware

  /** `requiresAuthentication` on an unsigned session: remember the requested
      URL for after sign-in and send the client to the sign-in page. */
  function AuthGate(s: Session, db: Db, originalUrl: string): (r: Step)
    ensures r.session.path == Some(originalUrl)
    ensures r.session.flash == s.flash + [Flash(Info, SIGN_IN_PROMPT)]
    ensures r.session.(path := s.path, flash := s.flash) == s
    ensures r.db == db && r.response == Redirect(SIGN_IN_PATH)
  {
    var s1 := s.(path := Some(originalUrl));
    Step(PushFlash(s1, Info, SIGN_IN_PROMPT), db, Redirect(SIGN_IN_PATH))
  }

  // ---------------------------------------------------------------------
  // Activity routes

  /** GET `/activities/page/:pageNum`. */
  function ListActivities(locals: Locals, s: Session, g: Gateway, db: Db, requested: Number): (r: Step)
    ensures r.session == s && r.db == db
    ensures var rows := LoadSortedActivities(g, db, locals.sortColumn, locals.sortAscend).rows;
            && (r.response.Render? <==> IsValidPageNum(requested, NumberOfPages(|rows|)))
            && (r.response.Render? ==>
                  r.response == Render(ActivitiesView(PageWindow(rows, requested.k),
                                                      GenArraySequence(NumberOfPages(|rows|)),
                                                      requested.k), locals.flash))
            && (!r.response.Render? ==> r.response == ErrorPage(ERROR_STATUS, Raise(INVALID_PAGE)))
  {
    var rows := LoadSortedActivities(g, db, locals.sortColumn, locals.sortAscend).rows;
    match Paginate(rows, requested)
    case None => Fail(s, db, Raise(INVALID_PAGE))
    case Some(page) =>
      Step(s, db, Render(ActivitiesView(page.items, page.pageNumbers, page.current), locals.flash))
  }

  /** POST `/activity/new`. */
  function AddActivityRoute(s: Session, g: Gateway, db: Db, form: Fields): (r: Step)
    ensures r.session.(flash := s.flash) == s
    ensures r.db.users == db.users && (WellFormed(db) ==> WellFormed(r.db))
    ensures var checked := ValidateActivityForm(form);
            checked.errors != [] ==>
              r == RenderWithFlash(PushAll(s, Error, checked.errors), db, AddActivityView(Some(checked.sanitized)))
    ensures ValidateActivityForm(form).errors == [] ==>
              && r.db == AddActivity(g, db, ValidateActivityForm(form).sanitized).db
              && r.response == Redirect(FIRST_PAGE_PATH)
              && r.session == PushFlash(s, Success, ACTIVITY_ADDED)
  {
    var checked := ValidateActivityForm(form);
    if checked.errors != [] then
      RenderWithFlash(PushAll(s, Error, checked.errors), db, AddActivityView(Some(checked.sanitized)))
    else
      var w := AddActivity(g, db, checked.sanitized);
      if !w.affected then Fail(s, w.db, Raise(NOT_FOUND))
      else Step(PushFlash(s, Success, ACTIVITY_ADDED), w.db, Redirect(FIRST_PAGE_PATH))
  }

  /** GET `/activities/edit/:activityId`: the form pre-filled from the row, if
      the signed-in user owns one with that id. */
  function EditActivityForm(locals: Locals, s: Session, g: Gateway, db: Db, id: int): (r: Step)
    ensures r.session == s && r.db == db
    ensures !CheckIsValidActivity(g, db, id) ==> r.response == ErrorPage(ERROR_STATUS, Raise(ACTIVITY_NOT_FOUND))
    ensures CheckIsValidActivity(g, db, id) ==>
              exists a :: a in db.activities && Matches(g, a, id)
                          && r.response == Render(EditActivityView(a.fields, id), locals.flash)
  {
    if !CheckIsValidActivity(g, db, id) then Fail(s, db, Raise(ACTIVITY_NOT_FOUND))
    else
      var activity := GetActivity(g, db, id).value;
      Step(s, db, Render(EditActivityView(activity.fields, id), locals.flash))
  }

  /** POST `/activities/edit/:activityId`: validation, then the no-edit check,
      then the ownership check, then the update. */
  function EditActivityRoute(s: Session, g: Gateway, db: Db, id: int, form: Fields): (r: Step)
    ensures r.session.(flash := s.flash) == s
    ensures r.db.users == db.users && (WellFormed(db) ==> WellFormed(r.db))
    ensures var checked := ValidateActivityForm(form);
            if checked.errors != [] then
              r == RenderWithFlash(PushAll(s, Error, checked.errors), db, EditActivityView(checked.sanitized, id))
            else if IsSameActivity(g, db, id, checked.sanitized) then
              && r.db == db
              && r.response == Redirect(FIRST_PAGE_PATH)
              && r.session == PushFlash(s, Info, NO_EDITS)
            else if !CheckIsValidActivity(g, db, id) then
              r == Fail(s, db, Raise(ACTIVITY_NOT_FOUND))
            else
              && r.db == EditActivity(g, db, id, checked.sanitized).db
              && r.response == Redirect(FIRST_PAGE_PATH)
              && r.session == PushFlash(s, Success, ACTIVITY_CHANGED)
  {
    var checked := ValidateActivityForm(form);
    if checked.errors != [] then
      RenderWithFlash(PushAll(s, Error, checked.errors), db, EditActivityView(checked.sanitized, id))
    else if IsSameActivity(g, db, id, checked.sanitized) then
      Step(PushFlash(s, Info, NO_EDITS), db, Redirect(FIRST_PAGE_PATH))
    else if !CheckIsValidActivity(g, db, id) then
      Fail(s, db, Raise(ACTIVITY_NOT_FOUND))
    else
      var w := EditActivity(g, db, id, checked.sanitized);
      if !w.affected then Fail(s, w.db, Raise(NOT_FOUND))
      else Step(PushFlash(s, Success, ACTIVITY_CHANGED), w.db, Redirect(FIRST_PAGE_PATH))
  }

  /** POST `/activity/delete/:activityId`. */
  function DeleteActivityRoute(s: Session, g: Gateway, db: Db, id: int): (r: Step)
    ensures r.session.(flash := s.flash) == s
    ensures r.db.users == db.users && (WellFormed(db) ==> WellFormed(r.db))
    ensures r.db == DeleteActivity(g, db, id).db
    ensures (exists a :: a in db.activities && a.id == id) ==>
              r.response == Redirect(FIRST_PAGE_PATH)
              && r.session == PushFlash(s, Success, ACTIVITY_DELETED)
    ensures (forall a :: a in db.activities ==> a.id != id) ==>
              r == Fail(s, db, Raise(DELETE_NOT_FOUND))
  {
    var w := DeleteActivity(g, db, id);
    if !w.affected then Fail(s, w.db, Raise(DELETE_NOT_FOUND))
    else Step(PushFlash(s, Success, ACTIVITY_DELETED), w.db, Redirect(FIRST_PAGE_PATH))
  }

  /** GET `/sort/:column/:pageNum`. */
  function SortRoute(locals: Locals, s: Session, g: Gateway, db: Db, column: string, requested: Number): (r: Step)
    ensures r.db == db
    ensures column !in VALID_COLUMN_NAMES ==> r == Fail(s, db, Raise(INVALID_COLUMN))
    ensures column in VALID_COLUMN_NAMES && !IsValidPageNum(requested, SortPageLimit(GetActivityCount(g, db))) ==>
              r == Fail(s, db, Raise(INVALID_SORT_PAGE))
    ensures column in VALID_COLUMN_NAMES && IsValidPageNum(requested, SortPageLimit(GetActivityCount(g, db))) ==>
              && r.session == ToggleSort(s, locals, column)
              && r.response == Redirect(PagePath(requested.k))
  {
    if column !in VALID_COLUMN_NAMES then Fail(s, db, Raise(INVALID_COLUMN))
    else
      var count := GetActivityCount(g, db);
      if !IsValidPageNum(requested, SortPageLimit(count)) then Fail(s, db, Raise(INVALID_SORT_PAGE))
      else Step(ToggleSort(s, locals, column), db, Redirect(PagePath(requested.k)))
  }

  // ---------------------------------------------------------------------
  // Account routes

  /** POST `/users/signin`. Success stores the credentials and sends the
      client to the path saved by the gate, deleting it, or else to the
      first page. */
  function SignIn(locals: Locals, s: Session, db: Db, username: string, password: string): (r: Step)
    ensures r.db == db
    ensures !Authenticate(db, Trim(username), password) ==>
              && r.response == Render(SignInView(Some(Trim(username))), s.flash + [Flash(Error, INVALID_CREDENTIALS)])
              && r.session == s.(flash := [])
    ensures Authenticate(db, Trim(username), password) ==>
              && r.session.username == Some(Trim(username))
              && r.session.signedIn
              && r.session.password == Some(password)
              && r.session.sortColumn == s.sortColumn && r.session.sortAscend == s.sortAscend
              && r.session.flash == s.flash + [Flash(Info, WELCOME)]
              && (Truthy(locals.path) ==> r.response == Redirect(locals.path.value) && r.session.path.None?)
              && (!Truthy(locals.path) ==> r.response == Redirect(FIRST_PAGE_PATH) && r.session.path == s.path)
  {
    var name := Trim(username);
    if !Authenticate(db, name, password) then
      RenderWithFlash(PushFlash(s, Error, INVALID_CREDENTIALS), db, SignInView(Some(name)))
    else
      var s1 := s.(username := Some(name), signedIn := true, password := Some(password));
      var s2 := PushFlash(s1, Info, WELCOME);
      if Truthy(locals.path) then Step(s2.(path := None), db, Redirect(locals.path.value))
      else Step(s2, db, Redirect(FIRST_PAGE_PATH))
  }

  /** POST `/users/signout`: deletes the three credential fields and nothing
      else, so the sort state survives until the next sign-in. */
  function SignOut(s: Session, db: Db): (r: Step)
    ensures r.session.username.None? && !r.session.signedIn && r.session.password.None?
    ensures r.session.(username := s.username, signedIn := s.signedIn, password := s.password) == s
    ensures r.db == db && r.response == Redirect(SIGN_IN_PATH)
  {
    Step(s.(username := None, signedIn := false, password := None), db, Redirect(SIGN_IN_PATH))
  }

  /** The `catch` of the account routes: a uniqueness conflict is shown to
      the user on the re-rendered form, anything else is rethrown. */
  function Recover(s: Session, db: Db, e: Failure, view: View): (r: Step)
    ensures r.db == db
    ensures IsUniqueConstraintViolation(e) ==>
              r == RenderWithFlash(PushFlash(s, Error, TAKEN_ON_WRITE), db, view)
    ensures !IsUniqueConstraintViolation(e) ==> r == Fail(s, db, e)
  {
    if IsUniqueConstraintViolation(e) then
      RenderWithFlash(PushFlash(s, Error, TAKEN_ON_WRITE), db, view)
    else Fail(s, db, e)
  }

  /** The account write of this request: the statement itself, unless the
      environment makes it throw. */
  function AccountWrite(env: Env, write: Result<Written>): (r: Result<Written>)
    ensures env.writeFault.Some? ==> r == Err(env.writeFault.value)
    ensures env.writeFault.None? ==> r == write
  {
    if env.writeFault.Some? then Err(env.writeFault.value) else write
  }

  /** The `try` of account creation for a form that passed: the insert and,
      when it throws or changes no row, the `catch`. */
  function CreateAccountWrite(locals: Locals, s: Session, db: Db, env: Env, name: string, password: string): (r: Step)
    ensures r.session.(username := s.username, password := s.password, signedIn := s.signedIn, flash := s.flash) == s
    ensures (r.session.username == s.username && r.session.signedIn == s.signedIn)
            || (r.session.signedIn && r.session.username.Some?)
    ensures r.db.activities == db.activities && r.db.nextId == db.nextId
    ensures name !in db.users && env.writeFault.None? ==>
              && r.session == s.(username := Some(name), password := Some(password), signedIn := true)
              && r.db == CreateAccount(db, name, password, env.salt).value.db
              && r.response == Render(SuccessCreateAccountView, locals.flash)
    ensures env.writeFault.Some? ==> r == Recover(s, db, env.writeFault.value, CreateAccountView(Some(name)))
  {
    var view := CreateAccountView(Some(name));
    match AccountWrite(env, CreateAccount(db, name, password, env.salt))
    case Err(e) => Recover(s, db, e, view)
    case Ok(w) =>
      if !w.affected then Recover(s, db, Raise(CREATE_FAILED), view)
      else
        var s1 := s.(username := Some(name), password := Some(password), signedIn := true);
        Step(s1, w.db, Render(SuccessCreateAccountView, locals.flash))
  }

  /** POST `/users/create-account`. */
  function CreateAccountRoute(locals: Locals, s: Session, db: Db, env: Env, username: string, password: string): (r: Step)
    ensures r.session.(username := s.username, password := s.password, signedIn := s.signedIn, flash := s.flash) == s
    ensures (r.session.username == s.username && r.session.signedIn == s.signedIn)
            || (r.session.signedIn && r.session.username.Some?)
    ensures r.db.activities == db.activities && r.db.nextId == db.nextId
    ensures var checked := ValidateAccountForm(username, password);
            var name := checked.sanitized.0;
            && (checked.errors != [] ==>
                  r == RenderWithFlash(PushAll(s, Error, checked.errors), db, CreateAccountView(Some(name))))
            && (checked.errors == [] && name in db.users ==>
                  r == RenderWithFlash(PushFlash(s, Error, TAKEN_ON_CHECK),
                                       db, CreateAccountView(Some(name))))
            && (checked.errors == [] && name !in db.users && env.writeFault.None? ==>
                  && r.session == s.(username := Some(name), password := Some(password), signedIn := true)
                  && r.db == CreateAccount(db, name, password, env.salt).value.db
                  && r.response == Render(SuccessCreateAccountView, locals.flash))
            && (checked.errors == [] && name !in db.users && env.writeFault.Some? ==>
                  r == Recover(s, db, env.writeFault.value, CreateAccountView(Some(name))))
  {
    var checked := ValidateAccountForm(username, password);
    var name := checked.sanitized.0;
    if checked.errors != [] then
      RenderWithFlash(PushAll(s, Error, checked.errors), db, CreateAccountView(Some(name)))
    else if CheckIfUsernameExists(db, name) then
      RenderWithFlash(PushFlash(s, Error, TAKEN_ON_CHECK), db, CreateAccountView(Some(name)))
    else CreateAccountWrite(locals, s, db, env, name, password)
  }

  /** POST `/users/delete`: removes the account, then deletes `username` and
      `signedIn` from the session. The cached password is not deleted. */
  function DeleteAccountRoute(s: Session, g: Gateway, db: Db): (r: Step)
    ensures r.db == DeleteAccount(g, db).db
    ensures DeleteAccount(g, db).affected ==>
              && r.response == Redirect(SIGN_IN_PATH)
              && r.session.username.None? && !r.session.signedIn
              && r.session.password == s.password
              && r.session.sortColumn == s.sortColumn && r.session.sortAscend == s.sortAscend
              && r.session.flash == s.flash + [Flash(Success, ACCOUNT_DELETED)]
              && r.session.(username := s.username, signedIn := s.signedIn, flash := s.flash) == s
    ensures !DeleteAccount(g, db).affected ==> r == Fail(s, db, Raise(NOT_FOUND))
  {
    var w := DeleteAccount(g, db);
    if !w.affected then Fail(s, w.db, Raise(NOT_FOUND))
    else
      var s1 := s.(username := None, signedIn := false);
      Step(PushFlash(s1, Success, ACCOUNT_DELETED), w.db, Redirect(SIGN_IN_PATH))
  }

  /** GET `/users/edit-account`: the form pre-filled with the credentials the
      gateway copied from the session. */
  function EditAccountForm(locals: Locals, s: Session, g: Gateway, db: Db): (r: Step)
    ensures r.session == s && r.db == db
    ensures r.response == Render(EditAccountView(g.username, g.password), locals.flash)
  {
    var (username, password) := GetAccountInfo(g);
    Step(s, db, Render(EditAccountView(username, password), locals.flash))
  }

  /** The `try` of the account edit for a form that passed and changes
      something: the update and, when it throws, the `catch`. An update that
      changes no row is rethrown, since its message is not the uniqueness
      violation. */
  function EditAccountWrite(s: Session, g: Gateway, db: Db, env: Env, name: string, password: string): (r: Step)
    ensures r.session.(username := s.username, password := s.password, flash := s.flash) == s
    ensures r.session.username == s.username || r.session.username.Some?
    ensures r.db.activities == db.activities && r.db.nextId == db.nextId
    ensures var view := EditAccountView(Some(name), Some(password));
            if env.writeFault.Some? then
              r == Recover(s, db, env.writeFault.value, view)
            else if UpdateAccount(g, db, name, password, env.salt).Err? then
              r == Recover(s, db, UpdateAccount(g, db, name, password, env.salt).error, view)
            else if UpdateAccount(g, db, name, password, env.salt).value.affected then
              && r.db == UpdateAccount(g, db, name, password, env.salt).value.db
              && r.response == Redirect(FIRST_PAGE_PATH)
              && r.session == PushFlash(s.(username := Some(name), password := Some(password)),
                                        Success, ACCOUNT_CHANGED)
            else r == Fail(s, db, Raise(UPDATE_FAILED))
  {
    var view := EditAccountView(Some(name), Some(password));
    match AccountWrite(env, UpdateAccount(g, db, name, password, env.salt))
    case Err(e) => Recover(s, db, e, view)
    case Ok(w) =>
      if !w.affected then
        ShortErrorNotRecognised(UPDATE_FAILED);
        Recover(s, db, Raise(UPDATE_FAILED), view)
      else
        var s1 := s.(username := Some(name), password := Some(password));
        Step(PushFlash(s1, Success, ACCOUNT_CHANGED), w.db, Redirect(FIRST_PAGE_PATH))
  }

  /** POST `/users/edit-account`. */
  function EditAccountRoute(s: Session, g: Gateway, db: Db, env: Env, username: string, password: string): (r: Step)
    ensures r.session.(username := s.username, password := s.password, flash := s.flash) == s
    ensures r.session.username == s.username || r.session.username.Some?
    ensures r.db.activities == db.activities && r.db.nextId == db.nextId
    ensures var checked := ValidateAccountForm(username, password);
            var name := checked.sanitized.0;
            var view := EditAccountView(Some(name), Some(password));
            if checked.errors != [] then
              r == RenderWithFlash(PushAll(s, Error, checked.errors), db, view)
            else if IsSameAccount(g, name, password) then
              r == Step(PushFlash(s, Info, NO_EDITS), db, Redirect(FIRST_PAGE_PATH))
            else if env.writeFault.Some? then
              r == Recover(s, db, env.writeFault.value, view)
            else if UpdateAccount(g, db, name, password, env.salt).Err? then
              r == Recover(s, db, UpdateAccount(g, db, name, password, env.salt).error, view)
            else if UpdateAccount(g, db, name, password, env.salt).value.affected then
              && r.db == UpdateAccount(g, db, name, password, env.salt).value.db
              && r.response == Redirect(FIRST_PAGE_PATH)
              && r.session == PushFlash(s.(username := Some(name), password := Some(password)),
                                        Success, ACCOUNT_CHANGED)
            else r == Fail(s, db, Raise(UPDATE_FAILED))
  {
    var checked := ValidateAccountForm(username, password);
    var name := checked.sanitized.0;
    if checked.errors != [] then
      RenderWithFlash(PushAll(s, Error, checked.errors), db, EditAccountView(Some(name), Some(password)))
    else if IsSameAccount(g, name, password) then
      Step(PushFlash(s, Info, NO_EDITS), db, Redirect(FIRST_PAGE_PATH))
    else EditAccountWrite(s, g, db, env, name, password)
  }

  // ---------------------------------------------------------------------
  // Dispatch

  /** The requests the application routes, with their parameters. Route
      matching itself is the framework's. */
  datatype Request =
    | Index
    | ListPage(page: Number)
    | NewActivityForm
    | NewActivity(form: Fields)
    | EditActivityPage(id: int)
    | EditActivitySubmit(id: int, form: Fields)
    | DeleteActivitySubmit(id: int)
    | SortBy(column: string, page: Number)
    | SignInPage
    | SignInSubmit(username: string, password: string)
    | SignOutSubmit
    | CreateAccountPage
    | CreateAccountSubmit(username: string, password: string)
    | DeleteAccountSubmit
    | EditAccountPage
    | EditAccountSubmit(newUsername: string, newPassword: string)
    | UnknownPath

  /** The routes mounted behind `requiresAuthentication`. */
  predicate RequiresAuthentication(req: Request) {
    || req.ListPage? || req.NewActivityForm? || req.NewActivity?
    || req.EditActivityPage? || req.EditActivitySubmit? || req.DeleteActivitySubmit?
    || req.SortBy? || req.DeleteAccountSubmit? || req.EditAccountPage? || req.EditAccountSubmit?
  }

  /** The routes of the activity pages. */
  predicate IsActivityRequest(req: Request) {
    req.Index? || req.ListPage? || req.NewActivityForm? || req.NewActivity?
    || req.EditActivityPage? || req.EditActivitySubmit? || req.DeleteActivitySubmit? || req.SortBy?
  }

  /** The handler an activity-page request names. */
  function HandleActivityRequest(locals: Locals, s: Session, g: Gateway, db: Db, env: Env, req: Request): (r: Step)
    requires IsActivityRequest(req)
    ensures req.Index? ==> r == Step(s, db, Redirect(FIRST_PAGE_PATH))
    ensures req.ListPage? ==> r == ListActivities(locals, s, g, db, req.page)
    ensures req.NewActivityForm? ==> r == Step(s, db, Render(AddActivityView(None), locals.flash))
    ensures req.NewActivity? ==> r == AddActivityRoute(s, g, db, req.form)
    ensures req.EditActivityPage? ==> r == EditActivityForm(locals, s, g, db, req.id)
    ensures req.EditActivitySubmit? ==> r == EditActivityRoute(s, g, db, req.id, req.form)
    ensures req.DeleteActivitySubmit? ==> r == DeleteActivityRoute(s, g, db, req.id)
    ensures req.SortBy? ==> r == SortRoute(locals, s, g, db, req.column, req.page)
  {
    match req
    case Index => Step(s, db, Redirect(FIRST_PAGE_PATH))
    case ListPage(page) => ListActivities(locals, s, g, db, page)
    case NewActivityForm => Step(s, db, Render(AddActivityView(None), locals.flash))
    case NewActivity(form) => AddActivityRoute(s, g, db, form)
    case EditActivityPage(id) => EditActivityForm(locals, s, g, db, id)
    case EditActivitySubmit(id, form) => EditActivityRoute(s, g, db, id, form)
    case DeleteActivitySubmit(id) => DeleteActivityRoute(s, g, db, id)
    case SortBy(column, page) => SortRoute(locals, s, g, db, column, page)
  }

  /** The handler an account or sign-in request names. */
  function HandleAccountRequest(locals: Locals, s: Session, g: Gateway, db: Db, env: Env, req: Request): (r: Step)
    requires !IsActivityRequest(req)
    ensures req.SignInPage? ==> r == Step(s, db, Render(SignInView(None), locals.flash))
    ensures req.SignInSubmit? ==> r == SignIn(locals, s, db, req.username, req.password)
    ensures req.SignOutSubmit? ==> r == SignOut(s, db)
    ensures req.CreateAccountPage? ==> r == Step(s, db, Render(CreateAccountView(None), locals.flash))
    ensures req.CreateAccountSubmit? ==> r == CreateAccountRoute(locals, s, db, env, req.username, req.password)
    ensures req.DeleteAccountSubmit? ==> r == DeleteAccountRoute(s, g, db)
    ensures req.EditAccountPage? ==> r == EditAccountForm(locals, s, g, db)
    ensures req.EditAccountSubmit? ==> r == EditAccountRoute(s, g, db, env, req.newUsername, req.newPassword)
    ensures req.UnknownPath? ==> r == Fail(s, db, Raise(UNKNOWN_PATH))
  {
    match req
    case SignInPage => Step(s, db, Render(SignInView(None), locals.flash))
    case SignInSubmit(username, password) => SignIn(locals, s, db, username, password)
    case SignOutSubmit => SignOut(s, db)
    case CreateAccountPage => Step(s, db, Render(CreateAccountView(None), locals.flash))
    case CreateAccountSubmit(username, password) => CreateAccountRoute(locals, s, db, env, username, password)
    case DeleteAccountSubmit => DeleteAccountRoute(s, g, db)
    case EditAccountPage => EditAccountForm(locals, s, g, db)
    case EditAccountSubmit(username, password) => EditAccountRoute(s, g, db, env, username, password)
    case UnknownPath => Fail(s, db, Raise(UNKNOWN_PATH))
  }

  /** The handler the request names, for a session the gate let through. */
  function Handle(locals: Locals, s: Session, g: Gateway, db: Db, env: Env, req: Request): (r: Step)
    ensures req.Index? ==> r == Step(s, db, Redirect(FIRST_PAGE_PATH))
    ensures req.ListPage? ==> r == ListActivities(locals, s, g, db, req.page)
    ensures req.NewActivityForm? ==> r == Step(s, db, Render(AddActivityView(None), locals.flash))
    ensures req.NewActivity? ==> r == AddActivityRoute(s, g, db, req.form)
    ensures req.EditActivityPage? ==> r == EditActivityForm(locals, s, g, db, req.id)
    ensures req.EditActivitySubmit? ==> r == EditActivityRoute(s, g, db, req.id, req.form)
    ensures req.DeleteActivitySubmit? ==> r == DeleteActivityRoute(s, g, db, req.id)
    ensures req.SortBy? ==> r == SortRoute(locals, s, g, db, req.column, req.page)
    ensures req.SignInPage? ==> r == Step(s, db, Render(SignInView(None), locals.flash))
    ensures req.SignInSubmit? ==> r == SignIn(locals, s, db, req.username, req.password)
    ensures req.SignOutSubmit? ==> r == SignOut(s, db)
    ensures req.CreateAccountPage? ==> r == Step(s, db, Render(CreateAccountView(None), locals.flash))
    ensures req.CreateAccountSubmit? ==> r == CreateAccountRoute(locals, s, db, env, req.username, req.password)
    ensures req.DeleteAccountSubmit? ==> r == DeleteAccountRoute(s, g, db)
    ensures req.EditAccountPage? ==> r == EditAccountForm(locals, s, g, db)
    ensures req.EditAccountSubmit? ==> r == EditAccountRoute(s, g, db, env, req.newUsername, req.newPassword)
    ensures req.UnknownPath? ==> r == Fail(s, db, Raise(UNKNOWN_PATH))
  {
    if IsActivityRequest(req) then HandleActivityRequest(locals, s, g, db, env, req)
    else HandleAccountRequest(locals, s, g, db, env, req)
  }

  /** One request: the datastore middleware builds the gateway from the
      session, the extraction middleware fills in the locals, the gate turns
      away unsigned sessions from protected routes, and the handler runs. */
  function Serve(originalUrl: string, req: Request, session: Session, db: Db, env: Env): (r: Step)
    ensures RequiresAuthentication(req) && !session.signedIn ==>
              r == AuthGate(session.(flash := []), db, originalUrl)
    ensures !(RequiresAuthentication(req) && !session.signedIn) ==>
              r == Handle(Extract(session).0, session.(flash := []), GatewayOf(session), db, env, req)
  {
    var (locals, s) := Extract(session);
    if RequiresAuthentication(req) && !session.signedIn then AuthGate(s, db, originalUrl)
    else Handle(locals, s, GatewayOf(session), db, env, req)
  }
}

=== FILE: sessions.dfy ===
/** The session record the handlers read and write, the middleware that
    extracts it into per-request locals, the flash-message queue, and the
    sort-state machine kept in the session. */
module Sessions {
  import opened Basics
  import Persistence

  datatype FlashKind = Info | Success | Error

  /** A one-shot status message. */
  datatype Flash = Flash(kind: FlashKind, text: string)

  /** `req.session`. An absent field is `None`; `signedIn` is either `true`
      or deleted, so its absence is `false`. `flash` is the queue that
      `req.flash(kind, text)` appends to. */
  datatype Session = Session(
    username: Option<string>,
    signedIn: bool,
    password: Option<string>,
    sortColumn: Option<string>,
    sortAscend: Option<string>,
    path: Option<string>,
    flash: seq<Flash>)

  /** A session nothing has been written to yet. */
  const FRESH_SESSION: Session := Session(None, false, None, None, None, None, [])

  const DEFAULT_SORT_COLUMN: string := "title"
  const DEFAULT_SORT_ORDER: string := "ASC"

  /** JavaScript truthiness of a possibly absent string. */
  predicate Truthy(o: Option<string>) {
    o.Some? && o.value != ""
  }

  /** `value ? value : fallback`. */
  function OrDefault(o: Option<string>, fallback: string): (r: string)
    ensures Truthy(o) ==> r == o.value
    ensures !Truthy(o) ==> r == fallback
  {
    if Truthy(o) then o.value else fallback
  }

  /** `res.locals` as the extraction middleware fills it in. */
  datatype Locals = Locals(
    sortColumn: string,
    sortAscend: string,
    username: Option<string>,
    signedIn: bool,
    path: Option<string>,
    flash: seq<Flash>)

  /** The sort state in force for a session: the stored column and order,
      each replaced by its default when absent. */
  function EffectiveSort(s: Session): (string, string) {
    (OrDefault(s.sortColumn, DEFAULT_SORT_COLUMN), OrDefault(s.sortAscend, DEFAULT_SORT_ORDER))
  }

  /** The extraction middleware: copies the session into the locals, with
      the sort defaults, and moves the pending flash messages out of the
      session. */
  function Extract(s: Session): (r: (Locals, Session))
    ensures (r.0.sortColumn, r.0.sortAscend) == EffectiveSort(s)
    ensures s.sortColumn.None? ==> r.0.sortColumn == DEFAULT_SORT_COLUMN
    ensures s.sortAscend.None? ==> r.0.sortAscend == DEFAULT_SORT_ORDER
    ensures r.0.username == s.username && r.0.signedIn == s.signedIn && r.0.path == s.path
    ensures r.0.flash == s.flash && r.1.flash == []
    ensures r.1 == s.(flash := [])
  {
    var (column, ascend) := EffectiveSort(s);
    (Locals(column, ascend, s.username, s.signedIn, s.path, s.flash), s.(flash := []))
  }

  /** The gateway object the datastore middleware builds for the request. */
  function GatewayOf(s: Session): (g: Persistence.Gateway)
    ensures Persistence.GetAccountInfo(g) == (s.username, s.password)
  {
    Persistence.Gateway(s.username, s.password)
  }

  /** `req.flash(kind, text)`: queues a message. */
  function PushFlash(s: Session, kind: FlashKind, text: string): (r: Session)
    ensures r.flash == s.flash + [Flash(kind, text)]
    ensures r.(flash := s.flash) == s
  {
    s.(flash := s.flash + [Flash(kind, text)])
  }

  /** `messages.forEach(m => req.flash(kind, m))`. */
  function PushAll(s: Session, kind: FlashKind, texts: seq<string>): (r: Session)
    ensures |r.flash| == |s.flash| + |texts|
    ensures r.flash[..|s.flash|] == s.flash
    ensures forall i :: 0 <= i < |texts| ==> r.flash[|s.flash| + i] == Flash(kind, texts[i])
    ensures r.(flash := s.flash) == s
    decreases |texts|
  {
    if texts == [] then s
    else
      var r := PushAll(PushFlash(s, kind, texts[0]), kind, texts[1..]);
      assert forall i :: 1 <= i < |texts| ==> texts[i] == texts[1..][i - 1];
      r
  }

  /** `req.flash()`: hands over every queued message and empties the queue. */
  function TakeFlash(s: Session): (r: (seq<Flash>, Session))
    ensures r.0 == s.flash && r.1.flash == []
    ensures r.1.(flash := s.flash) == s
  {
    (s.flash, s.(flash := []))
  }

  /** The opposite order of `order`; anything but "ASC" counts as
      descending. */
  function Flip(order: string): (r: string)
    ensures r in ["ASC", "DESC"]
    ensures order == "ASC" <==> r == "DESC"
  {
    if order == "ASC" then "DESC" else "ASC"
  }

  /** The session update of the sort route: picking the current column
      flips the order and leaves the column as it is stored; picking another
      column stores it and resets the order to ascending. Nothing else in the
      session changes. */
  function ToggleSort(s: Session, locals: Locals, column: string): (r: Session)
    requires column in Persistence.VALID_COLUMN_NAMES
    ensures column == locals.sortColumn ==>
              r.sortColumn == s.sortColumn && r.sortAscend == Some(Flip(locals.sortAscend))
    ensures column != locals.sortColumn ==>
              r.sortColumn == Some(column) && r.sortAscend == Some(DEFAULT_SORT_ORDER)
    ensures r.(sortColumn := s.sortColumn, sortAscend := s.sortAscend) == s
  {
    if column == locals.sortColumn then s.(sortAscend := Some(Flip(locals.sortAscend)))
    else s.(sortColumn := Some(column), sortAscend := Some(DEFAULT_SORT_ORDER))
  }

  /** In terms of the sort state in force: the same column flips the order,
      another column becomes current in ascending order. */
  lemma ToggleSortEffect(s: Session, column: string)
    requires column in Persistence.VALID_COLUMN_NAMES
    ensures var (locals, s') := Extract(s);
            var (c, o) := EffectiveSort(s);
            EffectiveSort(ToggleSort(s', locals, column))
              == if column == c then (c, Flip(o)) else (column, "ASC")
  {
    var (locals, s') := Extract(s);
    var r := ToggleSort(s', locals, column);
    assert Flip(locals.sortAscend) != "";
    if column != locals.sortColumn {
      assert column != "";
    }
  }

  /** Sorting twice on the column in force returns to the order in force,
      when that order is one the application writes. */
  lemma {:induction false} ToggleTwiceRestores(s: Session, column: string)
    requires column in Persistence.VALID_COLUMN_NAMES
    requires column == EffectiveSort(s).0 && EffectiveSort(s).1 in ["ASC", "DESC"]
    ensures var (l1, s1) := Extract(s);
            var t1 := ToggleSort(s1, l1, column);
            var (l2, s2) := Extract(t1);
            EffectiveSort(ToggleSort(s2, l2, column)) == EffectiveSort(s)
  {
    ToggleSortEffect(s, column);
    var (l1, s1) := Extract(s);
    var t1 := ToggleSort(s1, l1, column);
    ToggleSortEffect(t1, column);
  }
}

=== FILE: text.dfy ===
/** String primitives the request layer relies on: JavaScript's `trim`
    (which express-validator's `trim()` sanitizer and the sign-in handler
    both use), the `^[a-z0-9]+$` case-insensitive username pattern, the
    substring test behind `isUniqueConstraintViolation`, and the decimal
    rendering of a page number inside a redirect path. */
module Text {

  /** The characters JavaScript's `trim` and the regular-expression class `\s`
      remove: the ECMAScript WhiteSpace and LineTerminator code points. */
  predicate IsWhitespace(c: char) {
    var n := c as int;
    (9 <= n <= 13) || n == 32 || n == 0xA0 || n == 0x1680 || (0x2000 <= n <= 0x200A)
    || n == 0x2028 || n == 0x2029 || n == 0x202F || n == 0x205F || n == 0x3000 || n == 0xFEFF
  }

  ghost predicate AllWhitespace(s: string) {
    forall i :: 0 <= i < |s| ==> IsWhitespace(s[i])
  }

  /** Drops the leading whitespace of `s`: the result is the suffix of `s`
      left after a run of whitespace, and it does not start with whitespace. */
  function TrimStart(s: string): (r: string)
    ensures |r| <= |s| && r == s[|s| - |r|..]
    ensures AllWhitespace(s[..|s| - |r|])
    ensures r == [] || !IsWhitespace(r[0])
  {
    if |s| > 0 && IsWhitespace(s[0]) then
      var r := TrimStart(s[1..]);
      assert s[1..][..|s[1..]| - |r|] == s[1..|s| - |r|];
      r
    else
      s
  }

  /** Drops the trailing whitespace of `s`: the result is the prefix of `s`
      left before a run of whitespace, and it does not end with whitespace. */
  function TrimEnd(s: string): (r: string)
    ensures |r| <= |s| && r == s[..|r|]
    ensures AllWhitespace(s[|r|..])
    ensures r == [] || !IsWhitespace(r[|r| - 1])
  {
    if |s| > 0 && IsWhitespace(s[|s| - 1]) then
      var r := TrimEnd(s[..|s| - 1]);
      assert s[..|s| - 1][|r|..] + [s[|s| - 1]] == s[|r|..];
      r
    else
      s
  }

  /** `r` is what is left of `s` once the whitespace at both ends is gone. */
  ghost predicate IsTrimOf(r: string, s: string) {
    && (r == [] || (!IsWhitespace(r[0]) && !IsWhitespace(r[|r| - 1])))
    && exists lo, hi :: 0 <= lo <= hi <= |s| && r == s[lo..hi]
                        && AllWhitespace(s[..lo]) && AllWhitespace(s[hi..])
  }

  /** Slicing a suffix of `s` is slicing `s` itself, shifted. */
  lemma SliceOfSuffix<T>(s: seq<T>, lo: nat, k: nat)
    requires lo + k <= |s|
    ensures s[lo..][..k] == s[lo..lo + k] && s[lo..][k..] == s[lo + k..]
  {
  }

  /** A slice with whitespace on both sides and none at its own ends is the
      trim of the whole. */
  lemma TrimOfSlice(s: string, lo: nat, hi: nat)
    requires lo <= hi <= |s|
    requires AllWhitespace(s[..lo]) && AllWhitespace(s[hi..])
    requires lo == hi || (!IsWhitespace(s[lo]) && !IsWhitespace(s[hi - 1]))
    ensures IsTrimOf(s[lo..hi], s)
  {
    var r := s[lo..hi];
    assert r == [] || (r[0] == s[lo] && r[|r| - 1] == s[hi - 1]);
  }

  /** Trimming the end of the trimmed start leaves the trim of `s`. */
  lemma TrimStartThenEnd(s: string)
    ensures IsTrimOf(TrimEnd(TrimStart(s)), s)
  {
    var t := TrimStart(s);
    var r := TrimEnd(t);
    var lo := |s| - |t|;
    SliceOfSuffix(s, lo, |r|);
    TrimOfSlice(s, lo, lo + |r|);
  }

  /** JavaScript's `String.prototype.trim`. */
  function Trim(s: string): (r: string)
    ensures IsTrimOf(r, s)
  {
    TrimStartThenEnd(s);
    TrimEnd(TrimStart(s))
  }

  /** Trimming twice is trimming once. */
  lemma TrimIdempotent(s: string)
    ensures Trim(Trim(s)) == Trim(s)
  {
    var r := Trim(s);
    assert TrimStart(r) == r;
    assert TrimEnd(r) == r;
  }

  /** A string with no whitespace at either end is left as it is. */
  lemma TrimKeepsTrimmed(s: string)
    requires s == [] || (!IsWhitespace(s[0]) && !IsWhitespace(s[|s| - 1]))
    ensures Trim(s) == s
  {
    assert TrimStart(s) == s;
  }

  /** One character of the class `[a-z0-9]` under the `i` flag. Without the
      `u` flag JavaScript folds case only within ASCII, so this is exactly the
      ASCII letters and digits. */
  predicate IsAlphanumeric(c: char) {
    ('a' <= c <= 'z') || ('A' <= c <= 'Z') || ('0' <= c <= '9')
  }

  /** `/^[a-z0-9]+$/gi.test(s)`: one or more alphanumeric characters and
      nothing else. The expression is a literal inside the validator, so a
      fresh object is built on every call and the `g` flag carries no state
      from one test to the next. */
  predicate IsAlphanumericWord(s: string) {
    |s| > 0 && forall i :: 0 <= i < |s| ==> IsAlphanumeric(s[i])
  }

  /** `needle` sits in `hay` starting at index `j`. */
  predicate OccursAt(hay: string, needle: string, j: nat) {
    j + |needle| <= |hay| && hay[j..j + |needle|] == needle
  }

  /** The search for `needle` in `hay` from index `i` onwards. */
  function ContainsFrom(hay: string, needle: string, i: nat): (r: bool)
    requires i <= |hay|
    ensures r <==> exists j: nat :: i <= j && OccursAt(hay, needle, j)
    decreases |hay| - i
  {
    if i + |needle| > |hay| then false
    else if hay[i..i + |needle|] == needle then assert OccursAt(hay, needle, i); true
    else ContainsFrom(hay, needle, i + 1)
  }

  /** An unanchored regular-expression test for a literal with no special
      characters: does `needle` occur anywhere in `hay`? */
  function Contains(hay: string, needle: string): (r: bool)
    ensures r <==> exists j: nat :: OccursAt(hay, needle, j)
  {
    ContainsFrom(hay, needle, 0)
  }

  /** A needle longer than the haystack never occurs in it. */
  lemma TooLongNeverContained(hay: string, needle: string)
    requires |hay| < |needle|
    ensures !Contains(hay, needle)
  {
  }

  function DigitChar(d: nat): (c: char)
    requires d < 10
    ensures '0' <= c <= '9'
  {
    (('0' as int) + d) as char
  }

  predicate IsDigits(s: string) {
    forall i :: 0 <= i < |s| ==> '0' <= s[i] <= '9'
  }

  /** The decimal digits a JavaScript template literal writes for a
      non-negative integer: non-empty, no leading zero. */
  function NatToDecimal(n: nat): (r: string)
    ensures |r| > 0 && IsDigits(r)
    ensures r[0] == '0' ==> n == 0
  {
    if n < 10 then [DigitChar(n)]
    else NatToDecimal(n / 10) + [DigitChar(n % 10)]
  }

  /** The value a string of decimal digits denotes. */
  function DecimalValue(s: string): nat
    requires IsDigits(s)
  {
    if |s| == 0 then 0
    else DecimalValue(s[..|s| - 1]) * 10 + (s[|s| - 1] as int - '0' as int)
  }

  /** Reading back the digits written for `n` gives `n`, so distinct page
      numbers give distinct redirect paths. */
  lemma {:induction false} DecimalRoundTrip(n: nat)
    ensures DecimalValue(NatToDecimal(n)) == n
  {
    if n >= 10 {
      DecimalRoundTrip(n / 10);
      var s := NatToDecimal(n);
      assert s[..|s| - 1] == NatToDecimal(n / 10);
    }
  }

  lemma DecimalInjective(m: nat, n: nat)
    requires NatToDecimal(m) == NatToDecimal(n)
    ensures m == n
  {
    DecimalRoundTrip(m);
    DecimalRoundTrip(n);
  }
}

=== FILE: validation.dfy ===
/** The express-validator chains of the activity and account forms. Each
    chain sanitizes its field (trim) before checking it, and the handlers go
    on with the sanitized values; the error messages come out in the order
    of the chains. */
module Validation {
  import opened Text
  import opened Persistence

  const MAX_TEXT_LENGTH: nat := 50

  function RequiredMessage(which: string): string {
    "The " + which + " is required."
  }

  function LengthMessage(which: string): string {
    "The " + which + " must be between 1 and 50 characters."
  }

  const DATE_REQUIRED: string := "Please enter a date. Date cannot be empty."
  const MINUTES_REQUIRED: string := "Please enter the time spent on this activity. Value cannot be empty"
  const USERNAME_EMPTY: string := "Username cannot be empty."
  const USERNAME_CHARSET: string := "Username can only contain alphanumeric characters."
  const PASSWORD_EMPTY: string := "Password cannot be empty."

  /** The sanitized form and the messages of every rule it broke. */
  datatype Checked<T> = Checked(sanitized: T, errors: seq<string>)

  /** `validateActivityForm(name, whichName)`: trim, then `isLength({min: 1})`
      and `isLength({max: 50})`. The chain has no `bail`, so both checks run,
      but no trimmed value can break both: a field gets at most one message. */
  function CheckTextField(value: string, which: string): (r: Checked<string>)
    ensures r.sanitized == Trim(value) && IsTrimOf(r.sanitized, value)
    ensures |r.errors| <= 1
    ensures r.errors == [] <==> 1 <= |r.sanitized| <= MAX_TEXT_LENGTH
    ensures |r.sanitized| == 0 ==> r.errors == [RequiredMessage(which)]
    ensures |r.sanitized| > MAX_TEXT_LENGTH ==> r.errors == [LengthMessage(which)]
  {
    var t := Trim(value);
    var tooShort := if |t| < 1 then [RequiredMessage(which)] else [];
    var tooLong := if |t| > MAX_TEXT_LENGTH then [LengthMessage(which)] else [];
    Checked(t, tooShort + tooLong)
  }

  /** `notEmpty()` on an untrimmed field. */
  function CheckNotEmpty(value: string, message: string): (r: seq<string>)
    ensures r == [] <==> |value| > 0
    ensures r != [] ==> r == [message]
  {
    if |value| == 0 then [message] else []
  }

  /** The form is acceptable: trimmed title and category of 1 to 50
      characters, a date and a number of minutes given. */
  ghost predicate ActivityFormAcceptable(form: Fields) {
    && 1 <= |Trim(form.title)| <= MAX_TEXT_LENGTH
    && 1 <= |Trim(form.category)| <= MAX_TEXT_LENGTH
    && form.dateCompleted != []
    && form.minToComplete != []
  }

  /** The four chains of the add-activity and edit-activity routes. Title
      and category come back trimmed; date and minutes are passed on as
      submitted. At most one message per field. */
  function ValidateActivityForm(form: Fields): (r: Checked<Fields>)
    ensures r.errors == [] <==> ActivityFormAcceptable(form)
    ensures |r.errors| <= 4
    ensures r.sanitized.title == Trim(form.title)
    ensures r.sanitized.category == Trim(form.category)
    ensures r.sanitized.dateCompleted == form.dateCompleted
    ensures r.sanitized.minToComplete == form.minToComplete
  {
    var title := CheckTextField(form.title, "title");
    var category := CheckTextField(form.category, "category");
    var date := CheckNotEmpty(form.dateCompleted, DATE_REQUIRED);
    var minutes := CheckNotEmpty(form.minToComplete, MINUTES_REQUIRED);
    var errors := title.errors + category.errors + date + minutes;
    assert |errors| == |title.errors| + |category.errors| + |date| + |minutes|;
    assert title.errors == [] <==> 1 <= |Trim(form.title)| <= MAX_TEXT_LENGTH;
    assert category.errors == [] <==> 1 <= |Trim(form.category)| <= MAX_TEXT_LENGTH;
    assert errors == [] <==> title.errors == [] && category.errors == [] && date == [] && minutes == [];
    Checked(Fields(title.sanitized, category.sanitized, form.dateCompleted, form.minToComplete),
            errors)
  }

  /** The username chain: trim, `notEmpty()` with `bail()`, then the
      alphanumeric pattern. An empty name gets only the emptiness message. */
  function CheckUsername(value: string): (r: Checked<string>)
    ensures r.sanitized == Trim(value) && IsTrimOf(r.sanitized, value)
    ensures r.errors == [] <==> IsAlphanumericWord(r.sanitized)
    ensures r.sanitized == [] ==> r.errors == [USERNAME_EMPTY]
    ensures r.sanitized != [] && !IsAlphanumericWord(r.sanitized) ==> r.errors == [USERNAME_CHARSET]
  {
    var t := Trim(value);
    if |t| == 0 then Checked(t, [USERNAME_EMPTY])
    else if !IsAlphanumericWord(t) then Checked(t, [USERNAME_CHARSET])
    else Checked(t, [])
  }

  /** The chains of the create-account and edit-account routes: a trimmed
      alphanumeric username and a non-empty password, the password untrimmed. */
  function ValidateAccountForm(username: string, password: string): (r: Checked<(string, string)>)
    ensures r.errors == [] <==> IsAlphanumericWord(Trim(username)) && password != []
    ensures |r.errors| <= 2
    ensures r.sanitized.0 == Trim(username)
    ensures r.sanitized.1 == password
  {
    var u := CheckUsername(username);
    Checked((u.sanitized, password), u.errors + CheckNotEmpty(password, PASSWORD_EMPTY))
  }

  /** An accepted username has no whitespace left to trim, so it is stored
      exactly as it will be typed at sign-in after trimming. */
  lemma AcceptedUsernameIsTrimmed(username: string, password: string)
    requires ValidateAccountForm(username, password).errors == []
    ensures var name := ValidateAccountForm(username, password).sanitized.0;
            Trim(name) == name && IsAlphanumericWord(name)
  {
    var name := ValidateAccountForm(username, password).sanitized.0;
    assert !IsWhitespace(name[0]) && !IsWhitespace(name[|name| - 1]);
    TrimKeepsTrimmed(name);
  }

  /** A field that passed its chain passes it again unchanged. */
  lemma TextFieldIdempotent(value: string, which: string)
    requires CheckTextField(value, which).errors == []
    ensures var t := CheckTextField(value, which).sanitized;
            CheckTextField(t, which) == Checked(t, [])
  {
    TrimIdempotent(value);
  }

  /** Validating the sanitized form again accepts it and changes nothing. */
  lemma ActivityValidationIdempotent(form: Fields)
    requires ValidateActivityForm(form).errors == []
    ensures var s := ValidateActivityForm(form).sanitized;
            ValidateActivityForm(s) == Checked(s, [])
  {
    var title := CheckTextField(form.title, "title");
    var category := CheckTextField(form.category, "category");
    assert title.errors == [] && category.errors == [];
    TextFieldIdempotent(form.title, "title");
    TextFieldIdempotent(form.category, "category");
  }
}
